=== FILE: README.md ===
# Barber scheduling core, modelled in Dafny

This project models the scheduling core of a barber-shop booking service. Clients book services with barbers. Barbers:

- set one operating rule per weekday (open/close times, an optional lunch break, or closed);
- block out time;
- confirm and complete appointments;
- mark payments paid;
- read a daily summary.

The model covers these parts:

- **Slot listing and booking.** The booking validator and the slot listing share their building blocks: the half-open overlap test, the busy intervals of a barber's day, and the rule for a day's weekday.
- **Appointment state machine.** Cancel, confirm and complete.
- **Routers.** The operating-rule, time-block and payment routers.
- **Daily dashboard.** Counts by status, completed minutes and revenue, capacity, occupancy, and the five most booked services.

Modelling conventions:

- **Time.** Time is counted in whole minutes. An instant is `day * 1440 + minute of day`. `day` is the proleptic Gregorian ordinal (0001-01-01 is day 1, a Monday), so `Weekday(day) = (day + 6) % 7` is `date.weekday()`.
- **Tables.** A table is a sequence of `Row(id, data)` in table order.
  - `Get` is a lookup by primary key.
  - `Find` is the first row matching a filter (`.first()`).
  - `Put` commits a modified record.
  - `Insert` appends a row under a key larger than every key in the table.
- **Services.** Services are only read, so they are a map from key to record.
- **Callers.** The authenticated user arrives as `Caller(id, role)`.
- **Clock.** The clock arrives as a `now` parameter.
- **Results.** Each refusal is an `Error` value. `Error.StatusCode` gives its HTTP status.

Modules, one per file:

- `Common`: options, results, errors, roles and time.
- `Store`: tables.
- `Models`: records and defaults.
- `Schedule`: overlap, busy intervals, rules of a day, and the slot listing.
- `Booking`: `create_appointment`.
- `Lifecycle`: list, cancel, confirm and complete.
- `OperatingRules`: business hours.
- `TimeBlocks`: time blocks.
- `Payments`: payments.
- `Ranking`: `Counter.most_common`.
- `Dashboard`: the daily summary.
- `Scenarios`: worked examples.

The model follows the code in these places, where a reader might expect otherwise:

- The busy intervals use the service's current duration, not the appointment's duration snapshot. They skip appointments whose service was deleted.
- Booking overwrites only the client, barber and status of the submitted record. The snapshot fields and `payment_status` pass through as submitted.
- Cancel does not refuse a completed appointment.
- The operating-rule upsert never checks that lunch lies within the open hours.
- Marking a payment paid checks only that the caller is a barber. It does not check that the appointment is theirs or that it is completed. If the payment's appointment is missing, the request fails with a server error after the role check.

## Model

| member | source | states |
|---|---|---|
| Common.Error.StatusCode | app/routers/appointments.py:102-154 | Missing records give 404, a caller without the right gives 403, the missing appointment of a payment gives 500, and every other refusal gives 400. |
| Common.Combine | app/routers/appointments.py:126-127 | Combining a date with a clock time gives an instant whose date and clock time are exactly those, inside that day's 1440-minute span. |
| Common.CombineSplit | app/routers/appointments.py:119 | Splitting an instant into its date and clock time and combining them again gives the instant back. |
| Common.DateOfRange | app/routers/appointments.py:119 | An instant's date is a given day if and only if the instant lies in that day's span. |
| Common.Weekday | app/routers/appointments.py:82 | The weekday of a day is in 0..6, and day 1 (0001-01-01) is a Monday (0). |
| Common.WeekdayShift | app/routers/appointments.py:82 | Moving n days moves the weekday n places round the week. With day 1 a Monday, this fixes the weekday of every ordinal as `date.weekday()` does. |
| Common.WeekdayPeriodic | app/routers/appointments.py:82 | Weekdays repeat every seven days. |
| Store.Find | app/routers/appointments.py:83-88 | `.first()` returns the first matching row: that row matches, no earlier row matches, and None means no row matches. |
| Store.Get | app/routers/appointments.py:204-206 | A lookup by key finds nothing exactly when no row has the key. Otherwise it returns the record of a row stored under the key. |
| Store.GetUnique | app/routers/appointments.py:204 | When keys are distinct, a lookup returns v if and only if the row (key, v) is in the table. |
| Store.Put | app/routers/appointments.py:231-233 | A commit writes the record under its key. Every other key's lookup and every row's key are unchanged, and a missing key changes nothing. |
| Store.PutSameRecord | app/routers/payments.py:72-76 | Committing the record a key already holds leaves the table as it was. |
| Store.Select | app/routers/time_blocks.py:17-19 | A filtered select returns exactly the rows of the table that satisfy the filter. |
| Store.SelectUnique | app/routers/time_blocks.py:17-19 | Filtering keeps keys distinct. |
| Store.SelectAll | app/routers/time_blocks.py:17-19 | A filter that every row satisfies returns the whole table. |
| Store.Delete | app/routers/time_blocks.py:53-54 | After a delete, the table holds exactly the other rows and the key finds nothing. When keys are distinct and the key was present, the table is one row shorter. |
| Store.DeleteShrinks | app/routers/time_blocks.py:53-54 | With distinct keys, deleting a present key removes exactly one row. |
| Store.NextId | app/routers/business_hours.py:77-79 | A new row gets a key that is at least 1 and larger than every key in the table. |
| Store.Insert | app/routers/business_hours.py:77-79 | Adding a record appends it under a fresh key that now finds it. Every other key's lookup is unchanged, and distinct keys stay distinct. |
| Store.Collect | app/routers/appointments.py:54-60 | Filter-and-project yields a value if and only if some row's record maps to it. |
| Models.NewAppointment | app/models/appointment.py:21-32 | A new appointment is pending and unpaid, has no cancellation data, and satisfies the cancellation-record invariant. |
| Models.NewTimeBlock | app/models/time_block.py:6-14 | A block built without a reason gets the default reason "Bloqueio", with the given owner and bounds. |
| Models.NewBusinessHours | app/models/business_hours.py:14-21 | A new rule is not flagged closed and has none of its four time bounds set, so readers treat it as not open and without lunch. |
| Schedule.Overlaps | app/routers/appointments.py:26-28 | `_overlaps`: two half-open intervals overlap when each starts before the other ends. The test is used as written, so an empty interval strictly inside another counts as overlapping it. |
| Schedule.OverlapsIffSharedMinute | app/routers/appointments.py:26-28 | For non-empty half-open intervals, the overlap test holds if and only if some minute lies in both. |
| Schedule.BackToBackDoNotOverlap | app/routers/appointments.py:26-28 | An interval ending where another starts does not overlap it, in either order. |
| Schedule.Conflicts | app/routers/appointments.py:336-340 | A candidate conflicts when it overlaps at least one busy interval. |
| Schedule.LunchOf | app/routers/appointments.py:134-136 | The lunch exists exactly when both lunch bounds are set, and then runs from the lunch start to the lunch end on the given date. |
| Schedule.BusyIntervals | app/routers/appointments.py:31-74 | An interval is busy if and only if it comes from one of two sources. The first is a non-canceled appointment of the barber that starts inside the window and whose service exists, measured with that service's current duration. The second is a block of the barber that intersects the window, taken whole. |
| Schedule.HoursForDay | app/routers/appointments.py:77-88 | The day's rule is the first rule row of the barber for the day's weekday. None means there is no such row. |
| Schedule.ScheduleFor | app/routers/appointments.py:312-333 | There is no schedule exactly when the rule is missing, closed, or lacks a bound. Otherwise the window runs from the rule's opening to its closing time on the day, the lunch is the rule's lunch on the day, the window lies within the day, and the busy set is the busy intervals plus lunch. |
| Schedule.GridNext | app/routers/appointments.py:352 | Every grid point after the first lies on the grid that starts one 15-minute step later. |
| Schedule.Grid | app/routers/appointments.py:342-352 | The walk emits exactly the on-grid candidates of the service's duration that end by closing and conflict with nothing busy, in strictly increasing order. |
| Schedule.AvailableSlots | app/routers/appointments.py:299-368 | A missing or inactive service gives NotFound. The day is closed exactly when there is no schedule. Otherwise the answer carries the barber, duration, hours and lunch, and exactly the free grid slots. |
| Schedule.SlotShape | app/routers/appointments.py:342-352 | Every listed slot lasts the service's duration, lies inside the hours, and starts a whole number of 15-minute steps after opening. Starts strictly increase. |
| Schedule.GridShape | app/routers/appointments.py:342-352 | Every slot of the walk lasts the duration, lies between the walk's start and the day's end, and is on the grid. |
| Schedule.NoSlotsWhenTooLong | app/routers/appointments.py:345 | A service longer than the open window gets no slots. |
| Schedule.FreeGridCount | app/routers/appointments.py:342-352 | With nothing busy, the walk lists one slot per grid point up to the last start that still ends by closing. |
| Booking.CreateAppointment | app/routers/appointments.py:94-166 | The refusals come in the router's order: not a client, missing or inactive service, closed or unconfigured day, outside the hours, lunch overlap, busy overlap. A booking is accepted if and only if it lies inside the hours and conflicts with nothing busy. The accepted record is the payload with only the client, barber and status forced. |
| Booking.BookAppointment | app/routers/appointments.py:163-166 | An accepted booking is stored under a fresh key and nothing else in the store changes. A refusal stores nothing. |
| Booking.DoubleBookingRefused | app/routers/appointments.py:141-154 | Once a booking is stored, the same service at the same time is refused as taken, whoever asks. |
| Booking.EmptyBookingBookedTwice | app/routers/appointments.py:26-28 | For a service of zero or negative minutes, once a booking is stored the same booking is accepted again, because its empty interval does not overlap itself. |
| Booking.BusyAfterAppend | app/routers/appointments.py:31-74 | Storing one more appointment adds at most that appointment's interval to any barber's busy intervals. |
| Booking.BookingAvoidsOccupied | app/routers/appointments.py:119-154 | An accepted booking lies in the hours and misses lunch. It also misses every block of the barber and every non-canceled appointment of theirs in the window whose service exists. |
| Booking.LunchIsBusy | app/routers/appointments.py:143-150 | A lunch overlap is also a busy overlap, so the separate lunch check only decides the refusal's reason. |
| Booking.ListedSlotIsBookable | app/routers/appointments.py:336-352 | A client booking a listed slot's start for the same service on the same store is accepted. |
| Booking.BookableGridStartIsListed | app/routers/appointments.py:336-352 | Conversely, every accepted booking whose start is on the day's grid is a listed slot. |
| Lifecycle.ListAppointments | app/routers/appointments.py:174-189 | A client sees exactly the appointments they booked, a barber exactly those on their agenda, and any other role is refused. |
| Lifecycle.CancelAppointment | app/routers/appointments.py:197-234 | A missing appointment gives NotFound. An already-canceled one is returned unchanged. A caller who owns it neither as its client nor as its barber is refused. The client is refused within two hours of the start. Otherwise the status, stamp, author and reason are written. |
| Lifecycle.Advance | app/routers/appointments.py:246-259 | Only barbers may act, checked before the lookup. A missing appointment gives NotFound, another barber's appointment is refused, and canceled or completed appointments are invalid. Otherwise only the status changes. |
| Lifecycle.ConfirmAppointment | app/routers/appointments.py:240-263 | A confirmation leaves the stored record confirmed. It succeeds only from pending, confirmed or no-show. |
| Lifecycle.CompleteAppointment | app/routers/appointments.py:269-292 | A completion leaves the stored record completed. It succeeds only from pending, confirmed or no-show. |
| Lifecycle.CancelIdempotent | app/routers/appointments.py:208-209 | A second cancel, by anyone, at any time, with any reason, returns the first cancel's record and table unchanged. |
| Lifecycle.CanceledIsTerminal | app/routers/appointments.py:208-209 | A canceled appointment stays canceled. Cancel returns it as it is, and confirm and complete refuse it. |
| Lifecycle.CompletedCanBeCanceled | app/routers/appointments.py:208-229 | Its barber can still cancel a completed appointment. |
| Lifecycle.PutKeepsRecorded | app/routers/appointments.py:226-229 | Committing a record that satisfies the cancellation-record invariant keeps the invariant for the whole table. |
| Lifecycle.PutKeepsCanceled | app/routers/appointments.py:231-232 | Committing over a record that is not canceled leaves every canceled row exactly as it was. |
| Lifecycle.StepsKeepInvariants | app/routers/appointments.py:197-292 | Cancel, confirm and complete produce their target status, keep the table's length, and leave every already-canceled row exactly as it was, so its stamp, author and reason stay in place. None of them produces no-show. |
| Lifecycle.DefaultReasonRecorded | app/routers/appointments.py:200-229 | A cancel request that gives no reason records the reason "Cancelado". |
| Lifecycle.StepsKeepPaymentStatus | app/routers/appointments.py:226-229 | No state-machine step changes the payment status. |
| OperatingRules.CheckRule | app/routers/business_hours.py:35-48 | The validation passes if and only if the rule is valid, and a weekday outside 0..6 is refused first. |
| OperatingRules.UpsertBusinessHours | app/routers/business_hours.py:25-80 | Non-barbers are refused and invalid rules get the validation's error. An upsert succeeds if and only if the caller is a barber and the rule is valid. A row is appended exactly when no stored row is the caller's rule for the weekday; otherwise the table keeps its length. Only the first such row is rewritten, in place, and every other row is kept. Afterwards every day of that weekday resolves to the written rule. |
| OperatingRules.UpsertFound | app/routers/business_hours.py:57-66 | Overwriting the first matching row makes every day of the weekday resolve to the new rule. |
| OperatingRules.UpsertInserted | app/routers/business_hours.py:68-80 | Appending a row when none matched makes every day of the weekday resolve to the new rule. |
| OperatingRules.ListBusinessHours | app/routers/business_hours.py:15-22 | Barbers get exactly their own rows and other roles are refused. |
| OperatingRules.LunchOutsideHoursAccepted | app/routers/business_hours.py:46-48 | A rule whose lunch lies entirely after closing is accepted. |
| OperatingRules.ClosedSkipsTimeChecks | app/routers/business_hours.py:39 | A closed rule passes validation whatever its times. |
| TimeBlocks.ListTimeBlocks | app/routers/time_blocks.py:12-19 | Barbers get exactly their own blocks and other roles are refused. |
| TimeBlocks.CreateTimeBlock | app/routers/time_blocks.py:22-37 | Non-barbers are refused, then an end not after the start. The block is appended under a fresh key with the caller as owner, and distinct keys stay distinct. |
| TimeBlocks.DeleteTimeBlock | app/routers/time_blocks.py:40-55 | Non-barbers are refused, a missing block gives NotFound, and another barber's block is refused. The owner's delete removes exactly that block. |
| TimeBlocks.CreatedBlockHidesSlots | app/routers/time_blocks.py:28-34 | After a block is created, no listed slot of that barber's services overlaps it. |
| Payments.AmountOf | app/routers/payments.py:38 | The amount charged equals the price snapshot. |
| Payments.CreatePayment | app/routers/payments.py:18-46 | A missing appointment gives NotFound. A caller who is not its client is refused, whatever their role. An appointment that is not completed is refused. Otherwise a pending manual payment for the snapshot price is appended under a fresh key. |
| Payments.ConfirmPayment | app/routers/payments.py:52-78 | A missing payment gives NotFound before the role check, and non-barbers are refused. It succeeds if and only if the payment and its appointment exist and the caller is a barber. On success exactly the payment becomes paid with the stamp and exactly its appointment becomes paid. |
| Payments.ConfirmPaymentTwice | app/routers/payments.py:68-72 | Confirming again keeps both paid, changes no appointment, and only moves the paid stamp. |
| Payments.ConfirmIgnoresOwnerAndStatus | app/routers/payments.py:59-72 | Any barber can mark paid any payment whose appointment exists, whatever its owner and status. |
| Ranking.Occurrences | app/routers/dashboard.py:87 | A count is zero exactly when the key is absent. |
| Ranking.Distinct | app/routers/dashboard.py:87 | The tally's keys are exactly the keys of the list, each once. |
| Ranking.DistinctFirstSeen | app/routers/dashboard.py:87 | The keys come in first-seen order: a key listed before another occurs in the list before every occurrence of the other. |
| Ranking.Tally | app/routers/dashboard.py:87 | Each distinct key appears with its number of occurrences and its first-seen position. |
| Ranking.InsertRanked | app/routers/dashboard.py:89 | The result is a permutation of the list plus the inserted line. |
| Ranking.InsertRankedOrder | app/routers/dashboard.py:89 | Inserting a line seen after every line of a ranked list keeps the list ranked, so equal counts stay in first-seen order. |
| Ranking.SortRanked | app/routers/dashboard.py:89 | The stable sort by descending count is a ranked permutation of its input. |
| Ranking.TallyLine | app/routers/dashboard.py:87 | A tally line is a key of the list with its exact count. |
| Ranking.RankedTally | app/routers/dashboard.py:87-89 | Every line of the ranked tally is a key of the list with its exact count, and no key appears twice. |
| Ranking.RankOfKey | app/routers/dashboard.py:87-89 | Every key of the list has a line in the ranked tally, carrying its count. |
| Ranking.MostCommon | app/routers/dashboard.py:89 | `most_common(k)` has min(k, distinct keys) lines and is a prefix of the ranked tally. |
| Ranking.MostCommonOmitted | app/routers/dashboard.py:89 | A key of the list that `most_common(k)` leaves out is outranked by k listed lines, each counted at least as often. |
| Ranking.MostCommonSpec | app/routers/dashboard.py:89 | `most_common(k)` promises the following. There are min(k, distinct keys) lines, each an exact count, with no key twice. Lines are ordered by count and then first-seen order. A key left out is outranked by k lines, each counted at least as often. |
| Dashboard.DayBounds | app/routers/dashboard.py:18-21 | The day's span runs from midnight for 1440 minutes and holds an instant if and only if the instant's date is the day. |
| Dashboard.DayAppointments | app/routers/dashboard.py:32-38 | The day's appointments are exactly the barber's records dated that day, whatever their status. |
| Dashboard.CountStatus | app/routers/dashboard.py:42 | A status count is zero exactly when no appointment has the status. |
| Dashboard.StatusCountsSum | app/routers/dashboard.py:41-42 | The five status counts add up to the number of appointments. |
| Dashboard.ByStatus | app/routers/dashboard.py:42 | The status map holds exactly the statuses that occur, each with its count. |
| Dashboard.ByStatusSum | app/routers/dashboard.py:41-42 | The status map accounts for every appointment exactly once. |
| Dashboard.SumCompleted | app/routers/dashboard.py:52-58 | Without completed appointments the sum is zero, and with no negative service value it is not negative. |
| Dashboard.MinutesCompleted | app/routers/dashboard.py:52-58 | `minutes_completed` sums the current durations of the completed appointments' existing services. It is zero without completed appointments and not negative when no duration is. |
| Dashboard.RevenueCompleted | app/routers/dashboard.py:52-58 | `revenue_completed` sums the current prices of the completed appointments' existing services. It is zero without completed appointments and not negative when no price is. |
| Dashboard.SumCompletedAtMost | app/routers/dashboard.py:52-58 | With every service value at most hi (and hi not negative), the completed sum is at most hi per completed appointment. |
| Dashboard.SumCompletedAtLeast | app/routers/dashboard.py:52-58 | With every service value at least lo and no completed appointment's service missing, the sum is at least lo per completed appointment. |
| Dashboard.MinutesOfUniformServices | app/routers/dashboard.py:52-58 | When every service lasts d minutes and none is missing, the completed minutes are d per completed appointment. |
| Dashboard.Capacity | app/routers/dashboard.py:69-81 | Capacity exists if and only if the day's rule is open. Without lunch, it is the open span. |
| Dashboard.FreeMinutesCount | app/routers/dashboard.py:72-81 | Counting the open minutes outside lunch gives the open span less the part of lunch inside it. |
| Dashboard.CapacityCountsFreeMinutes | app/routers/dashboard.py:72-81 | When lunch lies within the hours, the capacity is exactly the number of open minutes outside lunch. |
| Dashboard.CapacityWithLunch | app/routers/dashboard.py:72-81 | For an open rule with lunch, wherever the lunch lies, the capacity is the open minutes outside lunch less the part of lunch outside the hours, because the lunch span is subtracted whole. |
| Dashboard.CapacityWithStrayLunch | app/routers/dashboard.py:78-81 | A lunch outside the hours is still subtracted: 08:00-12:00 with lunch 13:00-14:00 gives 180, though 240 minutes are free. |
| Dashboard.KeepListed | app/routers/dashboard.py:89-92 | Keeping the ranked lines whose service exists keeps exactly those lines, and no more lines than there were. |
| Dashboard.KeepListedOrder | app/routers/dashboard.py:89-92 | Dropping lines keeps the ranking order and keeps keys distinct. |
| Dashboard.HeadOutranksTail | app/routers/dashboard.py:89 | In a ranked list with distinct keys, the first line outranks every later line and shares its key with none. |
| Dashboard.TopServices | app/routers/dashboard.py:86-92 | At most five entries, each naming an existing service by its name. |
| Dashboard.TopLines | app/routers/dashboard.py:86-92 | The lines kept for the top list are keys booked that day with their exact counts, ranked, with no key twice. |
| Dashboard.TopServicesSpec | app/routers/dashboard.py:86-92 | Every entry is a service booked that day with its exact count. No service appears twice, and counts never increase down the list. |
| Dashboard.TopServicesOmitted | app/routers/dashboard.py:86-92 | An existing booked service missing from the list was outranked by five keys, each booked at least as often. |
| Dashboard.OmittedNotRanked | app/routers/dashboard.py:89-92 | A key with an existing service that is absent from the kept lines was not among the ranked lines. |
| Dashboard.ServiceIds | app/routers/dashboard.py:48 | The service keys of the day's appointments, one per appointment, in order. |
| Dashboard.DashboardSummary | app/routers/dashboard.py:24-104 | Only barbers get a summary of their own day. The total is the day's appointment count. The status map is the status tally of the day's appointments. The minutes and revenue are the completed sums over them, and the top services are the top list of their service keys. Capacity follows the day's rule. Occupancy exists if and only if capacity is positive, and is then completed minutes over capacity. |
| Dashboard.SummaryCountsAddUp | app/routers/dashboard.py:41-42 | The summary's per-status counts add up to its total. |
| Dashboard.SummaryTopServices | app/routers/dashboard.py:86-92 | Each top service of a summary was booked that day, with its count equal to the number of the day's appointments of that service. No service is listed twice and counts never increase down the list. |
| Scenarios.ExampleSchedule | app/routers/appointments.py:312-333 | The example store's day is open 08:00-20:00 with its lunch. |
| Scenarios.EmptyDayListsEveryQuarterHour | app/routers/appointments.py:342-352 | An empty 08:00-20:00 day lists 47 thirty-minute slots, from 08:00 to the one ending at 20:00. |
| Scenarios.OverlappingBookingRefused | app/routers/appointments.py:152-154 | With 10:00-10:30 booked, 10:15 is refused as taken and 10:30 is accepted. |
| Scenarios.LunchBookingRefused | app/routers/appointments.py:133-138 | With lunch 12:00-13:00, 12:30 and 11:45 are refused for lunch and 11:00 is accepted. |
| Scenarios.LunchRefusedAt | app/routers/appointments.py:133-138 | With lunch 12:00-13:00, every half-hour haircut starting after 11:30 and before 13:00 is refused for lunch. |
| Scenarios.BeforeLunchAccepted | app/routers/appointments.py:133-154 | With lunch 12:00-13:00, a haircut at 11:00 is accepted. |
| Scenarios.LateCancelByClientOnly | app/routers/appointments.py:217-229 | Ninety minutes ahead, the client's cancel is refused and the barber's succeeds. |
| Scenarios.CompletedCannotBeConfirmed | app/routers/appointments.py:256-257 | Confirming a completed appointment is an invalid transition. |

## Left out

- Authentication and users: the token handling in `app/core/security.py` and the auth, users and services routers are not modelled. The resolved user arrives as a `Caller`. `app/main.py` and the seed script are not part of this model.
- Floating point: prices, snapshots and amounts are integer cents. The rounding of revenue to two decimals is left out. Occupancy is kept as the exact ratio (completed minutes, capacity) instead of the rounded percentage.
- Clock: each `datetime.utcnow()` read is a `now` parameter. Cancel reads the clock up to twice: a client's cancel reads it for the window check and again for the stamp, a barber's only for the stamp. The model uses one reading for both.
- Sub-minute precision: instants are whole minutes, so seconds in submitted times are not represented.
- Time zones: instants carry no UTC offset. A submitted `appointment_time` with an offset makes the comparison with the naive `datetime.combine` values (app/routers/appointments.py:130) raise a TypeError, and the request fails with a 500. The same happens when such a stored time is compared with `utcnow()` in a client's cancel (line 220). The model answers these requests as if the time were naive, with a 400 or a success.
- Calendar range: instants are unbounded integers. Python's `datetime` stops at year 9999, so adding a huge service duration (app/routers/appointments.py:59, 116 and 310, and the slot walk at line 345) raises an OverflowError and gives a 500. From a 2026 date that takes a duration of about 4.2 billion minutes. Durations are not checked, and the model returns `OutsideHours`, or an empty slot list, where the source fails.
- Keys: keys sent by the client in a submitted record are ignored. The model assigns the next key above every stored key.
- Row order: a table's order is its insertion order. `.first()` without ORDER BY is modelled as the first row in that order.
- Service lookup: the dashboard fetches the services of the day's appointments in one query. The model looks each one up in the service map directly, which gives the same records.
- Status strings: stored status strings outside the five listed values are not represented.
- Concurrency and transactions: these are left out. Two concurrent bookings can both pass the check in the service, and the model describes one request at a time.
- Booking.ListedSlotIsBookable: requires a service duration of at least zero. With a negative duration the listing offers starts after closing time, and one that falls past midnight is booked against the next date's rule instead of the listed day's.
- Booking.DoubleBookingRefused: stated for services lasting at least a minute, because a booking of zero or negative length is an empty interval that does not overlap itself. Service durations are not checked for sign, and for such a service the same booking is accepted twice, as Booking.EmptyBookingBookedTwice shows.
- Dashboard.DayAppointments: states which records are included, but not how often or in which order, because the query has no ORDER BY and every measure built on it (counts, sums, tallies) is taken over the records included.
- Schedule.FreeGridCount: covers only a day with nothing busy.

=== FILE: booking.dfy ===
/** The booking validator of the appointments router: an ordered chain of
    refusals, then the record as the payload carried it with three fields
    forced. */
module Booking {
  import opened Common
  import opened Store
  import opened Models
  import opened Schedule

  /** The interval a booking of the payload's service at the payload's time
      would occupy, measured with the service's current duration. */
  function Requested(db: Db, payload: Appointment): Interval
    requires payload.serviceId in db.services
  {
    Interval(payload.time, payload.time + db.services[payload.serviceId].durationMinutes)
  }

  /** The day's schedule of the service's barber on the day the payload's
      time falls on. */
  function ScheduleAt(db: Db, payload: Appointment): Option<DaySchedule>
    requires payload.serviceId in db.services
  {
    ScheduleFor(db, db.services[payload.serviceId].barberId, DateOf(payload.time))
  }

  /** `create_appointment`. Refusals come in the router's order: a caller
      who is not a client, a missing or inactive service, a day without an
      open rule, an interval outside the hours, a lunch overlap, any busy
      overlap. On success the payload is kept except for the client, the
      barber (taken from the service) and the status. */
  function CreateAppointment(db: Db, caller: Caller, payload: Appointment): (r: Result<Appointment>)
    ensures caller.role != Client ==> r == Err(Forbidden)
    ensures caller.role == Client && !Bookable(db, payload.serviceId) ==> r == Err(ServiceNotFound)
    ensures caller.role == Client && Bookable(db, payload.serviceId) ==>
      var iv := Requested(db, payload);
      match ScheduleAt(db, payload)
      case None => r == Err(ClosedOrUnconfigured)
      case Some(sch) =>
        && (iv.start < sch.window.start || iv.end > sch.window.end ==> r == Err(OutsideHours))
        && ((sch.window.start <= iv.start && iv.end <= sch.window.end
             && sch.lunch.Some? && Overlaps(iv, sch.lunch.value)) ==> r == Err(LunchConflict))
        && ((sch.window.start <= iv.start && iv.end <= sch.window.end
             && !(sch.lunch.Some? && Overlaps(iv, sch.lunch.value))
             && Conflicts(iv, sch.busy)) ==> r == Err(SlotTaken))
        && (r.Ok? <==> sch.window.start <= iv.start && iv.end <= sch.window.end
                       && !Conflicts(iv, sch.busy))
    ensures r.Ok? ==>
      r.value == payload.(clientId := caller.id,
                          barberId := db.services[payload.serviceId].barberId,
                          status := Pending)
  {
    if caller.role != Client then Err(Forbidden)
    else if !Bookable(db, payload.serviceId) then Err(ServiceNotFound)
    else
      var svc := db.services[payload.serviceId];
      var iv := Requested(db, payload);
      match ScheduleAt(db, payload)
      case None => Err(ClosedOrUnconfigured)
      case Some(sch) =>
        if iv.start < sch.window.start || iv.end > sch.window.end then Err(OutsideHours)
        else if sch.lunch.Some? && Overlaps(iv, sch.lunch.value) then Err(LunchConflict)
        else if Conflicts(iv, sch.busy) then Err(SlotTaken)
        else Ok(payload.(clientId := caller.id, barberId := svc.barberId, status := Pending))
  }

  /** The commit of an accepted booking: the record is appended to the
      appointments under a fresh key; nothing else changes. */
  function BookAppointment(db: Db, caller: Caller, payload: Appointment): (r: Result<(Db, Row<Appointment>)>)
    ensures r.Ok? <==> CreateAppointment(db, caller, payload).Ok?
    ensures r.Err? ==> r.error == CreateAppointment(db, caller, payload).error
    ensures r.Ok? ==>
      && r.value.1.data == CreateAppointment(db, caller, payload).value
      && Get(db.appointments, r.value.1.id).None?
      && r.value.0 == db.(appointments := db.appointments + [r.value.1])
  {
    match CreateAppointment(db, caller, payload)
    case Err(e) => Err(e)
    case Ok(a) =>
      var (appointments', id) := Insert(db.appointments, a);
      Ok((db.(appointments := appointments'), Row(id, a)))
  }

  /** Once a booking is stored, asking again for the same service at the
      same time is refused as taken, whoever asks (for a service that lasts
      at least a minute). */
  lemma DoubleBookingRefused(db: Db, caller: Caller, payload: Appointment, other: Caller)
    requires BookAppointment(db, caller, payload).Ok?
    requires db.services[payload.serviceId].durationMinutes > 0
    requires other.role == Client
    ensures var db' := BookAppointment(db, caller, payload).value.0;
      CreateAppointment(db', other, payload) == Err(SlotTaken)
  {
    var (db', row) := BookAppointment(db, caller, payload).value;
    var sch := ScheduleAt(db, payload).value;
    var sch' := ScheduleAt(db', payload).value;
    var iv := Requested(db, payload);
    var a := row.data;
    assert db'.services == db.services && Requested(db', payload) == iv;
    assert sch'.window == sch.window && sch'.lunch == sch.lunch;
    assert sch.window.start <= iv.start && iv.end <= sch.window.end;
    assert a.time == payload.time && a.serviceId == payload.serviceId && a.status == Pending;
    assert a.barberId == db.services[payload.serviceId].barberId;
    assert db'.appointments[|db.appointments|].data == a;
    assert iv in BusyIntervals(db', a.barberId, sch'.window);
    assert iv in sch'.busy;
    assert Overlaps(iv, iv);
  }

  /** For a service of zero or negative minutes the guarantee above fails:
      its interval is empty and does not overlap itself, so once it is
      stored the same booking is accepted again, whoever asks. */
  lemma EmptyBookingBookedTwice(db: Db, caller: Caller, payload: Appointment, other: Caller)
    requires BookAppointment(db, caller, payload).Ok?
    requires db.services[payload.serviceId].durationMinutes <= 0
    requires other.role == Client
    ensures var db' := BookAppointment(db, caller, payload).value.0;
      CreateAppointment(db', other, payload).Ok?
  {
    var (db', row) := BookAppointment(db, caller, payload).value;
    var sch := ScheduleAt(db, payload).value;
    var sch' := ScheduleAt(db', payload).value;
    var iv := Requested(db, payload);
    var a := row.data;
    var barberId := db.services[payload.serviceId].barberId;
    assert db'.services == db.services && Requested(db', payload) == iv;
    assert sch'.window == sch.window && sch'.lunch == sch.lunch;
    assert a.time == payload.time && a.serviceId == payload.serviceId;
    BusyAfterAppend(db, row, barberId, sch.window);
    forall x | x in sch'.busy
      ensures !Overlaps(iv, x)
    {
      assert x in sch.busy || x == iv;
    }
  }

  /** Appending an appointment adds at most its own interval to the busy
      intervals of any barber and window. */
  lemma BusyAfterAppend(db: Db, row: Row<Appointment>, barberId: int, w: Interval)
    ensures var db' := db.(appointments := db.appointments + [row]);
      var a := row.data;
      forall x :: x in BusyIntervals(db', barberId, w) ==>
        x in BusyIntervals(db, barberId, w)
        || (a.serviceId in db.services && x == Interval(a.time, a.time + db.services[a.serviceId].durationMinutes))
  {
    var db' := db.(appointments := db.appointments + [row]);
    var a := row.data;
    forall x | x in BusyIntervals(db', barberId, w)
      ensures x in BusyIntervals(db, barberId, w)
        || (a.serviceId in db.services && x == Interval(a.time, a.time + db.services[a.serviceId].durationMinutes))
    {
      if i :| (&& 0 <= i < |db'.appointments|
               && db'.appointments[i].data.barberId == barberId
               && db'.appointments[i].data.status != Canceled
               && w.start <= db'.appointments[i].data.time < w.end
               && db'.appointments[i].data.serviceId in db'.services
               && x == Interval(db'.appointments[i].data.time,
                                db'.appointments[i].data.time
                                + db'.services[db'.appointments[i].data.serviceId].durationMinutes)) {
        if i < |db.appointments| {
          assert db'.appointments[i] == db.appointments[i];
        }
      }
    }
  }

  /** The point-in-time guarantee of an accepted booking, stated over the
      stored records: its interval lies inside the day's hours, misses
      lunch, misses every block of the barber, and misses every
      non-canceled appointment of the barber that starts inside the hours
      and whose service still exists (measured with that service's current
      duration). */
  lemma BookingAvoidsOccupied(db: Db, caller: Caller, payload: Appointment)
    requires CreateAppointment(db, caller, payload).Ok?
    ensures Bookable(db, payload.serviceId) && ScheduleAt(db, payload).Some?
    ensures var iv := Requested(db, payload);
      var sch := ScheduleAt(db, payload).value;
      && sch.window.start <= iv.start && iv.end <= sch.window.end
      && (sch.lunch.Some? ==> !Overlaps(iv, sch.lunch.value))
    ensures var iv := Requested(db, payload);
      var barberId := db.services[payload.serviceId].barberId;
      forall j :: 0 <= j < |db.blocks| && db.blocks[j].data.barberId == barberId ==>
        !Overlaps(iv, Interval(db.blocks[j].data.start, db.blocks[j].data.end))
    ensures var iv := Requested(db, payload);
      var barberId := db.services[payload.serviceId].barberId;
      var w := ScheduleAt(db, payload).value.window;
      forall i :: 0 <= i < |db.appointments| ==>
        var a := db.appointments[i].data;
        a.barberId == barberId && a.status != Canceled && a.serviceId in db.services
        && w.start <= a.time < w.end
        ==> !Overlaps(iv, Interval(a.time, a.time + db.services[a.serviceId].durationMinutes))
  {
    var iv := Requested(db, payload);
    var barberId := db.services[payload.serviceId].barberId;
    var sch := ScheduleAt(db, payload).value;
    if sch.lunch.Some? {
      assert sch.lunch.value in sch.busy;
    }
    forall j | 0 <= j < |db.blocks| && db.blocks[j].data.barberId == barberId
      ensures !Overlaps(iv, Interval(db.blocks[j].data.start, db.blocks[j].data.end))
    {
      var span := Interval(db.blocks[j].data.start, db.blocks[j].data.end);
      assert Overlaps(iv, span) ==> span in sch.busy;
    }
    forall i | 0 <= i < |db.appointments|
      ensures var a := db.appointments[i].data;
        a.barberId == barberId && a.status != Canceled && a.serviceId in db.services
        && sch.window.start <= a.time < sch.window.end
        ==> !Overlaps(iv, Interval(a.time, a.time + db.services[a.serviceId].durationMinutes))
    {
      var a := db.appointments[i].data;
      if a.barberId == barberId && a.status != Canceled && a.serviceId in db.services
         && sch.window.start <= a.time < sch.window.end {
        var span := Interval(a.time, a.time + db.services[a.serviceId].durationMinutes);
        assert span in sch.busy;
      }
    }
  }

  /** The separate lunch check only picks the refusal's reason: lunch is
      also among the busy intervals, so a lunch overlap is a busy overlap. */
  lemma LunchIsBusy(db: Db, payload: Appointment)
    requires payload.serviceId in db.services && ScheduleAt(db, payload).Some?
    requires ScheduleAt(db, payload).value.lunch.Some?
    requires Overlaps(Requested(db, payload), ScheduleAt(db, payload).value.lunch.value)
    ensures Conflicts(Requested(db, payload), ScheduleAt(db, payload).value.busy)
  {
    var sch := ScheduleAt(db, payload).value;
    assert sch.lunch.value in sch.busy;
  }

  /** Every slot the listing offers can be booked: a client booking the
      same service at a listed start, on the same state, is accepted. */
  lemma ListedSlotIsBookable(db: Db, serviceId: int, day: int, s: Interval,
                             clientId: int, payload: Appointment)
    requires AvailableSlots(db, serviceId, day).Ok?
    requires s in SlotsOf(AvailableSlots(db, serviceId, day).value)
    requires db.services[serviceId].durationMinutes >= 0
    requires payload.serviceId == serviceId && payload.time == s.start
    ensures CreateAppointment(db, Caller(clientId, Client), payload).Ok?
  {
    var svc := db.services[serviceId];
    var sch := ScheduleFor(db, svc.barberId, day).value;
    assert s.start + svc.durationMinutes <= sch.window.end;
    DateOfRange(day, s.start);
    assert ScheduleAt(db, payload) == Some(sch);
    assert Requested(db, payload) == s;
  }

  /** Conversely, every grid start a client could book is listed: the
      listing is exactly the accepted bookings on the grid of the day. */
  lemma BookableGridStartIsListed(db: Db, clientId: int, payload: Appointment)
    requires CreateAppointment(db, Caller(clientId, Client), payload).Ok?
    requires OnGrid(ScheduleAt(db, payload).value.window.start, payload.time)
    ensures var a := AvailableSlots(db, payload.serviceId, DateOf(payload.time));
      a.Ok? && a.value.Open? && Requested(db, payload) in a.value.slots
  {
  }
}

=== FILE: business_hours.dfy ===
/** The operating-rule router: a barber lists their weekly rules and
    upserts the rule of one weekday after validating it. */
module OperatingRules {
  import opened Common
  import opened Store
  import opened Models
  import opened Schedule

  /** What the upsert accepts: a weekday in 0..6 and, for a day not flagged
      closed, both bounds with close after open and, when both lunch bounds
      are set, lunch end after lunch start. Nothing ties lunch to the open
      hours, and a closed day skips every time check. */
  predicate ValidRule(weekday: int, p: BusinessHours) {
    && 0 <= weekday <= 6
    && (!p.isClosed ==>
          && p.openTime.Some? && p.closeTime.Some?
          && p.openTime.value < p.closeTime.value
          && (p.HasLunch() ==> p.lunchStart.value < p.lunchEnd.value))
  }

  /** The first refusal of the validation, in the router's order. */
  function CheckRule(weekday: int, p: BusinessHours): (r: Option<Error>)
    ensures r.None? <==> ValidRule(weekday, p)
    ensures (weekday < 0 || weekday > 6) ==> r == Some(InvalidWeekday)
  {
    if weekday < 0 || weekday > 6 then Some(InvalidWeekday)
    else if p.isClosed then None
    else if p.openTime.None? || p.closeTime.None? then Some(MissingBounds)
    else if p.closeTime.value <= p.openTime.value then Some(CloseNotAfterOpen)
    else if p.HasLunch() && p.lunchEnd.value <= p.lunchStart.value then Some(LunchNotAfterStart)
    else None
  }

  /** The stored row the upsert writes: the key from the caller and the
      path, the five fields from the payload. */
  function Written(caller: Caller, weekday: int, p: BusinessHours): BusinessHours {
    BusinessHours(caller.id, weekday, p.isClosed, p.openTime, p.closeTime, p.lunchStart, p.lunchEnd)
  }

  /** `upsert_business_hours`. The barber-only dependency refuses other
      roles first. The first row with the caller's key is overwritten in
      place; without one a new row is appended. */
  function UpsertBusinessHours(t: Table<BusinessHours>, caller: Caller, weekday: int, p: BusinessHours)
    : (r: Result<(Table<BusinessHours>, BusinessHours)>)
    ensures caller.role != Barber ==> r == Err(Forbidden)
    ensures caller.role == Barber && CheckRule(weekday, p).Some? ==> r == Err(CheckRule(weekday, p).value)
    ensures r.Ok? <==> caller.role == Barber && ValidRule(weekday, p)
    ensures r.Ok? ==> r.value.1 == Written(caller, weekday, p)
    ensures r.Ok? ==>
      var t' := r.value.0;
      && (|t'| == |t| || t' == t + [Row(NextId(t), r.value.1)])
      && forall j :: 0 <= j < |t| ==>
           t'[j] == t[j] || (t'[j] == Row(t[j].id, r.value.1) && RuleOf(t[j].data, caller.id, weekday))
    ensures r.Ok? ==>
      (|r.value.0| == |t| + 1 <==> forall j :: 0 <= j < |t| ==> !RuleOf(t[j].data, caller.id, weekday))
    ensures r.Ok? ==>
      forall j :: 0 <= j < |t| && r.value.0[j] != t[j] ==>
        forall k :: 0 <= k < j ==> !RuleOf(t[k].data, caller.id, weekday)
    ensures r.Ok? ==>
      forall day :: Weekday(day) == weekday ==>
        HoursForDay(r.value.0, caller.id, day) == Some(r.value.1)
  {
    if caller.role != Barber then Err(Forbidden)
    else if CheckRule(weekday, p).Some? then Err(CheckRule(weekday, p).value)
    else
      var h := Written(caller, weekday, p);
      match Find(t, (row: Row<BusinessHours>) => RuleOf(row.data, caller.id, weekday))
      case Some(i) =>
        var t' := t[i := Row(t[i].id, h)];
        UpsertFound(t, t', i, caller.id, weekday, h);
        Ok((t', h))
      case None =>
        var t' := Insert(t, h).0;
        UpsertInserted(t, t', caller.id, weekday, h);
        Ok((t', h))
  }

  lemma UpsertFound(t: Table<BusinessHours>, t': Table<BusinessHours>, i: nat,
                    barberId: int, weekday: int, h: BusinessHours)
    requires i < |t| && RuleOf(t[i].data, barberId, weekday)
    requires forall j :: 0 <= j < i ==> !RuleOf(t[j].data, barberId, weekday)
    requires RuleOf(h, barberId, weekday) && t' == t[i := Row(t[i].id, h)]
    ensures forall day :: Weekday(day) == weekday ==> HoursForDay(t', barberId, day) == Some(h)
  {
    forall day | Weekday(day) == weekday
      ensures HoursForDay(t', barberId, day) == Some(h)
    {
      assert RuleOf(t'[i].data, barberId, Weekday(day));
    }
  }

  lemma UpsertInserted(t: Table<BusinessHours>, t': Table<BusinessHours>,
                       barberId: int, weekday: int, h: BusinessHours)
    requires forall j :: 0 <= j < |t| ==> !RuleOf(t[j].data, barberId, weekday)
    requires RuleOf(h, barberId, weekday) && t' == t + [Row(NextId(t), h)]
    ensures forall day :: Weekday(day) == weekday ==> HoursForDay(t', barberId, day) == Some(h)
  {
    forall day | Weekday(day) == weekday
      ensures HoursForDay(t', barberId, day) == Some(h)
    {
      var k :| 0 <= k < |t'| && t'[k].data == HoursForDay(t', barberId, day).value
               && RuleOf(t'[k].data, barberId, weekday);
      if k < |t| {
        assert t'[k] == t[k];
      }
    }
  }

  /** `list_business_hours`: barbers only, and exactly the caller's rows. */
  function ListBusinessHours(t: Table<BusinessHours>, caller: Caller): (r: Result<Table<BusinessHours>>)
    ensures r.Err? <==> caller.role != Barber
    ensures r.Err? ==> r.error == Forbidden
    ensures r.Ok? ==> forall row :: row in r.value <==> row in t && row.data.barberId == caller.id
  {
    if caller.role != Barber then Err(Forbidden)
    else Ok(Select(t, (row: Row<BusinessHours>) => row.data.barberId == caller.id))
  }

  /** The validation never ties lunch to the open hours: a rule whose lunch
      lies entirely after closing is accepted. */
  lemma LunchOutsideHoursAccepted(t: Table<BusinessHours>, barberId: int)
    ensures var p := BusinessHours(0, 0, false, Some(8 * 60), Some(12 * 60), Some(13 * 60), Some(14 * 60));
      UpsertBusinessHours(t, Caller(barberId, Barber), 0, p).Ok?
  {
  }

  /** A closed payload skips every time check, even inverted bounds. */
  lemma ClosedSkipsTimeChecks(weekday: int, p: BusinessHours)
    requires 0 <= weekday <= 6 && p.isClosed
    ensures CheckRule(weekday, p).None?
  {
  }
}

=== FILE: common.dfy ===
/** Shared vocabulary of the scheduling model: optional values, results,
    the refusals a request can meet, the resolved caller, and time as
    integer minutes. */
module Common {

  datatype Option<+T> = None | Some(value: T)

  /** Every way a request is refused. Each kind carries the HTTP status the
      routers raise for it (see StatusCode). */
  datatype Error =
    | ServiceNotFound
    | AppointmentNotFound
    | BlockNotFound
    | PaymentNotFound
    | Forbidden
    | ClosedOrUnconfigured    // no operating rule, closed flag, or a missing bound
    | OutsideHours
    | LunchConflict
    | SlotTaken
    | CancelWindowPassed
    | InvalidTransition
    | NotCompleted
    | InvalidWeekday
    | MissingBounds
    | CloseNotAfterOpen
    | LunchNotAfterStart
    | EndNotAfterStart
    | MissingAppointment      // attribute access on an absent record: an unhandled server error
  {
    /** 404 for a missing record, 403 for a caller without the right,
        500 for the unhandled missing appointment, 400 for every other
        refusal. */
    function StatusCode(): (code: int)
      ensures code in {400, 403, 404, 500}
      ensures code == 404 <==> ServiceNotFound? || AppointmentNotFound? || BlockNotFound? || PaymentNotFound?
      ensures code == 403 <==> Forbidden?
      ensures code == 500 <==> MissingAppointment?
    {
      match this
      case ServiceNotFound => 404
      case AppointmentNotFound => 404
      case BlockNotFound => 404
      case PaymentNotFound => 404
      case Forbidden => 403
      case MissingAppointment => 500
      case _ => 400
    }
  }

  datatype Result<+T> = Ok(value: T) | Err(error: Error)

  /** The role string of a user: "client", "barber", or anything else. */
  datatype Role = Client | Barber | OtherRole

  /** The identity resolved from the bearer token. */
  datatype Caller = Caller(id: int, role: Role)

  const MinutesPerDay: int := 1440

  /** Distance between consecutive slot starts. */
  const SlotStep: int := 15

  /** How long before the appointment a client may still cancel: two hours. */
  const CancelWindow: int := 2 * 60

  /** A time of day at minute resolution (a `datetime.time`). */
  type TimeOfDay = m: int | 0 <= m < MinutesPerDay

  /** `datetime.combine(day, t)`: the instant, in minutes, of clock time t on
      the day with ordinal `day`. The instant's date and clock time are
      exactly the ones it was built from. */
  function Combine(day: int, t: TimeOfDay): (instant: int)
    ensures DateOf(instant) == day && ClockOf(instant) == t
    ensures day * MinutesPerDay <= instant < (day + 1) * MinutesPerDay
  {
    DivModOfCombine(day, t);
    day * MinutesPerDay + t
  }

  /** `instant.date()`: the ordinal of the day containing the instant. */
  function DateOf(instant: int): int {
    instant / MinutesPerDay
  }

  /** `instant.time()`: the clock time of the instant. */
  function ClockOf(instant: int): TimeOfDay {
    instant % MinutesPerDay
  }

  /** `date.weekday()`: 0 = Monday .. 6 = Sunday, for day ordinals counted
      from 0001-01-01 = 1, which was a Monday. */
  function Weekday(day: int): (w: int)
    ensures 0 <= w < 7
    ensures day == 1 ==> w == 0
  {
    (day + 6) % 7
  }

  lemma DivModOfCombine(day: int, t: TimeOfDay)
    ensures (day * MinutesPerDay + t) / MinutesPerDay == day
    ensures (day * MinutesPerDay + t) % MinutesPerDay == t
  {
    var n := day * MinutesPerDay + t;
    assert n == day * MinutesPerDay + t && 0 <= t < MinutesPerDay;
  }

  /** Splitting an instant into date and clock time and combining them again
      gives the instant back. */
  lemma {:induction false} CombineSplit(instant: int)
    ensures Combine(DateOf(instant), ClockOf(instant)) == instant
  {
  }

  /** An instant lies on a given day exactly when it falls in the day's
      1440-minute span. */
  lemma {:induction false} DateOfRange(day: int, instant: int)
    ensures DateOf(instant) == day <==>
            day * MinutesPerDay <= instant < (day + 1) * MinutesPerDay
  {
    var d := DateOf(instant);
    assert instant == d * MinutesPerDay + ClockOf(instant);
  }

  /** The day after any day is the next weekday, so together with day 1
      being a Monday the weekday of every ordinal is fixed. */
  lemma WeekdayShift(day: int, n: int)
    ensures Weekday(day + n) == (Weekday(day) + n) % 7
  {
  }

  /** Weekdays repeat every seven days. */
  lemma {:induction false} WeekdayPeriodic(day: int)
    ensures Weekday(day + 7) == Weekday(day)
  {
  }
}

=== FILE: dashboard.dfy ===
/** The barber's daily summary: the day's appointments counted by status,
    the revenue and minutes of the completed ones, the day's capacity and
    occupancy, and the five most booked services. */
module Dashboard {
  import opened Common
  import opened Store
  import opened Models
  import opened Schedule
  import opened Ranking

  /** `_day_bounds`: the half-open span from the day's midnight to the next
      one. An instant lies in it exactly when its date is the day. */
  function DayBounds(day: int): (b: Interval)
    ensures b.start == Combine(day, 0) && b.end == b.start + MinutesPerDay
    ensures forall t :: Covers(b, t) <==> DateOf(t) == day
  {
    DayWindow(day);
    Interval(Combine(day, 0), Combine(day, 0) + MinutesPerDay)
  }

  lemma DayWindow(day: int)
    ensures forall t :: DateOf(t) == day <==> day * MinutesPerDay <= t < (day + 1) * MinutesPerDay
  {
    forall t {
      DateOfRange(day, t);
    }
  }

  /** The barber's appointments whose time falls on the day, in table
      order, whatever their status. */
  function DayAppointments(t: Table<Appointment>, barberId: int, day: int): (r: seq<Appointment>)
    ensures |r| <= |t|
    ensures forall a :: a in r <==>
      exists j :: 0 <= j < |t| && t[j].data == a && a.barberId == barberId && DateOf(a.time) == day
  {
    var b := DayBounds(day);
    Collect(t, (a: Appointment) =>
      if a.barberId == barberId && b.start <= a.time < b.end then Some(a) else None)
  }

  /** How many of the appointments have the status. */
  function CountStatus(appts: seq<Appointment>, s: Status): (n: nat)
    ensures n <= |appts|
    ensures n == 0 <==> forall i :: 0 <= i < |appts| ==> appts[i].status != s
  {
    if |appts| == 0 then 0
    else CountStatus(appts[..|appts| - 1], s) + (if appts[|appts| - 1].status == s then 1 else 0)
  }

  /** Every appointment has exactly one of the five statuses, so the five
      counts add up to the number of appointments. */
  lemma {:induction false} StatusCountsSum(appts: seq<Appointment>)
    ensures CountStatus(appts, Pending) + CountStatus(appts, Confirmed) + CountStatus(appts, Canceled)
          + CountStatus(appts, Completed) + CountStatus(appts, NoShow) == |appts|
  {
    if |appts| > 0 {
      StatusCountsSum(appts[..|appts| - 1]);
    }
  }

  /** `dict(Counter(statuses))`: the statuses that occur, each with its count. */
  function ByStatus(appts: seq<Appointment>): (m: map<Status, nat>)
    ensures forall s :: s in m <==> exists i :: 0 <= i < |appts| && appts[i].status == s
    ensures forall s :: s in m ==> m[s] == CountStatus(appts, s)
  {
    var counted := map[Pending := CountStatus(appts, Pending),
                       Confirmed := CountStatus(appts, Confirmed),
                       Canceled := CountStatus(appts, Canceled),
                       Completed := CountStatus(appts, Completed),
                       NoShow := CountStatus(appts, NoShow)];
    map s | s in counted && counted[s] > 0 :: counted[s]
  }

  /** A status's entry, zero when it is absent from the map. */
  function CountOf(m: map<Status, nat>, s: Status): nat {
    if s in m then m[s] else 0
  }

  /** The status map accounts for every appointment exactly once. */
  lemma ByStatusSum(appts: seq<Appointment>)
    ensures var m := ByStatus(appts);
      CountOf(m, Pending) + CountOf(m, Confirmed) + CountOf(m, Canceled)
      + CountOf(m, Completed) + CountOf(m, NoShow) == |appts|
  {
    StatusCountsSum(appts);
    var m := ByStatus(appts);
    forall s | s !in m
      ensures CountStatus(appts, s) == 0
    {
    }
  }

  /** The sum of `f` of the service of each completed appointment whose
      service still exists (the others are skipped). */
  function SumCompleted(appts: seq<Appointment>, services: map<int, Service>, f: Service -> int): (n: int)
    ensures (forall i :: 0 <= i < |appts| ==> appts[i].status != Completed) ==> n == 0
    ensures (forall id :: id in services ==> f(services[id]) >= 0) ==> n >= 0
  {
    if |appts| == 0 then 0
    else
      var a := appts[|appts| - 1];
      SumCompleted(appts[..|appts| - 1], services, f)
        + (if a.status == Completed && a.serviceId in services then f(services[a.serviceId]) else 0)
  }

  /** With every service's value at most hi (hi not negative), the sum
      over the completed appointments is at most hi per completed
      appointment. */
  lemma {:induction false} SumCompletedAtMost(appts: seq<Appointment>, services: map<int, Service>,
                                              f: Service -> int, hi: int)
    requires 0 <= hi
    requires forall id :: id in services ==> f(services[id]) <= hi
    ensures SumCompleted(appts, services, f) <= hi * CountStatus(appts, Completed)
  {
    if |appts| > 0 {
      var init := appts[..|appts| - 1];
      var a := appts[|appts| - 1];
      SumCompletedAtMost(init, services, f, hi);
      var c := CountStatus(init, Completed);
      if a.status == Completed {
        assert CountStatus(appts, Completed) == c + 1;
        ScaleStep(hi, c);
      }
    }
  }

  /** One more unit adds one more k. */
  lemma ScaleStep(k: int, c: int)
    ensures k * (c + 1) == k * c + k
  {
  }

  /** With every service's value at least lo and no completed appointment's
      service missing, the sum is at least lo per completed appointment. */
  lemma {:induction false} SumCompletedAtLeast(appts: seq<Appointment>, services: map<int, Service>,
                                               f: Service -> int, lo: int)
    requires forall id :: id in services ==> lo <= f(services[id])
    requires forall i :: 0 <= i < |appts| && appts[i].status == Completed ==> appts[i].serviceId in services
    ensures lo * CountStatus(appts, Completed) <= SumCompleted(appts, services, f)
  {
    if |appts| > 0 {
      var init := appts[..|appts| - 1];
      var a := appts[|appts| - 1];
      assert forall i :: 0 <= i < |init| ==> init[i] == appts[i];
      SumCompletedAtLeast(init, services, f, lo);
      var c := CountStatus(init, Completed);
      if a.status == Completed {
        assert a.serviceId in services;
        assert CountStatus(appts, Completed) == c + 1;
        ScaleStep(lo, c);
      }
    }
  }

  /** `minutes_completed`: the current durations of the completed
      appointments' services. */
  function MinutesCompleted(appts: seq<Appointment>, services: map<int, Service>): (n: int)
    ensures (forall i :: 0 <= i < |appts| ==> appts[i].status != Completed) ==> n == 0
    ensures (forall id :: id in services ==> services[id].durationMinutes >= 0) ==> n >= 0
  {
    SumCompleted(appts, services, (s: Service) => s.durationMinutes)
  }

  /** `revenue_completed`, in integer cents: the current prices of the
      completed appointments' services. */
  function RevenueCompleted(appts: seq<Appointment>, services: map<int, Service>): (n: int)
    ensures (forall i :: 0 <= i < |appts| ==> appts[i].status != Completed) ==> n == 0
    ensures (forall id :: id in services ==> services[id].price >= 0) ==> n >= 0
  {
    SumCompleted(appts, services, (s: Service) => s.price)
  }

  /** When every service lasts exactly d minutes and every completed
      appointment's service exists, the completed minutes are d per
      completed appointment. */
  lemma MinutesOfUniformServices(appts: seq<Appointment>, services: map<int, Service>, d: nat)
    requires forall id :: id in services ==> services[id].durationMinutes == d
    requires forall i :: 0 <= i < |appts| && appts[i].status == Completed ==> appts[i].serviceId in services
    ensures MinutesCompleted(appts, services) == d * CountStatus(appts, Completed)
  {
    SumCompletedAtMost(appts, services, (s: Service) => s.durationMinutes, d);
    SumCompletedAtLeast(appts, services, (s: Service) => s.durationMinutes, d);
  }

  /** `capacity_minutes`: for an open rule, the open span less the lunch
      span when both lunch bounds are set; None without a rule, for a
      closed day, or with a missing bound. Lunch is subtracted whole,
      wherever it lies. */
  function Capacity(h: Option<BusinessHours>): (c: Option<int>)
    ensures c.Some? <==> h.Some? && h.value.IsOpen()
    ensures c.Some? && !h.value.HasLunch() ==> c.value == h.value.closeTime.value - h.value.openTime.value
  {
    match h
    case None => None
    case Some(r) =>
      if !r.IsOpen() then None
      else
        var open := r.closeTime.value - r.openTime.value;
        Some(if r.HasLunch() then open - (r.lunchEnd.value - r.lunchStart.value) else open)
  }

  /** The minutes m with lo <= m < hi that lie outside [ls, le). */
  function FreeMinutes(lo: int, hi: int, ls: int, le: int): nat
    decreases hi - lo
  {
    if hi <= lo then 0
    else FreeMinutes(lo, hi - 1, ls, le) + (if ls <= hi - 1 < le then 0 else 1)
  }

  /** Counting the open minutes outside lunch one by one gives the open
      span less the part of lunch that overlaps it. */
  lemma {:induction false} FreeMinutesCount(lo: int, hi: int, ls: int, le: int)
    requires lo <= hi && ls <= le
    ensures var shared := (if hi < le then hi else le) - (if lo > ls then lo else ls);
      FreeMinutes(lo, hi, ls, le) == (hi - lo) - (if shared > 0 then shared else 0)
    decreases hi - lo
  {
    if hi > lo {
      FreeMinutesCount(lo, hi - 1, ls, le);
    }
  }

  /** When lunch lies within the open hours, the capacity is exactly the
      number of open minutes outside lunch. */
  lemma CapacityCountsFreeMinutes(h: BusinessHours)
    requires h.IsOpen() && h.openTime.value <= h.closeTime.value
    requires h.HasLunch() ==>
      h.openTime.value <= h.lunchStart.value <= h.lunchEnd.value <= h.closeTime.value
    ensures Capacity(Some(h)).value ==
      if h.HasLunch() then FreeMinutes(h.openTime.value, h.closeTime.value, h.lunchStart.value, h.lunchEnd.value)
      else FreeMinutes(h.openTime.value, h.closeTime.value, 0, 0)
  {
    if h.HasLunch() {
      FreeMinutesCount(h.openTime.value, h.closeTime.value, h.lunchStart.value, h.lunchEnd.value);
    } else {
      FreeMinutesCount(h.openTime.value, h.closeTime.value, 0, 0);
    }
  }

  /** Wherever lunch lies, the capacity is the number of open minutes
      outside lunch less the part of lunch that falls outside the hours:
      lunch is subtracted whole, not clipped to the open span. */
  lemma CapacityWithLunch(h: BusinessHours)
    requires h.IsOpen() && h.HasLunch()
    requires h.openTime.value <= h.closeTime.value && h.lunchStart.value <= h.lunchEnd.value
    ensures var open: int, close: int := h.openTime.value, h.closeTime.value;
      var ls: int, le: int := h.lunchStart.value, h.lunchEnd.value;
      var shared := (if close < le then close else le) - (if open > ls then open else ls);
      var inside := if shared > 0 then shared else 0;
      Capacity(Some(h)).value == FreeMinutes(open, close, ls, le) - ((le - ls) - inside)
  {
    FreeMinutesCount(h.openTime.value, h.closeTime.value, h.lunchStart.value, h.lunchEnd.value);
  }

  /** A lunch outside the open hours, which the upsert accepts, is still
      subtracted: 08:00-12:00 with lunch 13:00-14:00 counts 180 minutes
      though all 240 open minutes are free. */
  lemma CapacityWithStrayLunch()
    ensures var h := BusinessHours(1, 0, false, Some(8 * 60), Some(12 * 60), Some(13 * 60), Some(14 * 60));
      && Capacity(Some(h)) == Some(180)
      && FreeMinutes(8 * 60, 12 * 60, 13 * 60, 14 * 60) == 240
  {
    FreeMinutesCount(8 * 60, 12 * 60, 13 * 60, 14 * 60);
  }

  /** One line of `top_services`. */
  datatype TopService = TopService(serviceId: int, name: string, count: nat)

  /** The lines whose service exists, in order. */
  function KeepListed(lines: seq<Tallied>, services: map<int, Service>): (r: seq<Tallied>)
    ensures |r| <= |lines|
    ensures forall x :: x in r <==> x in lines && x.key in services
  {
    if |lines| == 0 then []
    else
      var rest := KeepListed(lines[1..], services);
      assert lines == [lines[0]] + lines[1..];
      if lines[0].key in services then [lines[0]] + rest else rest
  }

  /** Dropping lines keeps the ranking order and keeps keys distinct. */
  lemma {:induction false} KeepListedOrder(lines: seq<Tallied>, services: map<int, Service>)
    requires Ranked(lines)
    requires forall p, q :: 0 <= p < q < |lines| ==> lines[p].key != lines[q].key
    ensures Ranked(KeepListed(lines, services))
    ensures forall i, j :: 0 <= i < j < |KeepListed(lines, services)| ==>
      KeepListed(lines, services)[i].key != KeepListed(lines, services)[j].key
  {
    if |lines| > 0 {
      var tail := lines[1..];
      var rest := KeepListed(tail, services);
      KeepListedOrder(tail, services);
      if lines[0].key in services {
        var r := [lines[0]] + rest;
        HeadOutranksTail(lines);
        forall i, j | 0 <= i < j < |r|
          ensures Ahead(r[i], r[j]) && r[i].key != r[j].key
        {
          assert r[j] == rest[j - 1] && rest[j - 1] in rest;
          if i > 0 {
            assert r[i] == rest[i - 1];
          }
        }
      }
    }
  }

  /** In a ranked list with distinct keys, the head outranks every later
      line and shares its key with none of them. */
  lemma HeadOutranksTail(lines: seq<Tallied>)
    requires |lines| > 0 && Ranked(lines)
    requires forall p, q :: 0 <= p < q < |lines| ==> lines[p].key != lines[q].key
    ensures forall x :: x in lines[1..] ==> Ahead(lines[0], x) && lines[0].key != x.key
  {
    forall x | x in lines[1..]
      ensures Ahead(lines[0], x) && lines[0].key != x.key
    {
      var q :| 0 <= q < |lines[1..]| && lines[1..][q] == x;
      assert lines[q + 1] == x;
    }
  }

  /** `top_services`: the five most booked service keys of the day, with
      the keys whose service no longer exists dropped afterwards. */
  function TopServices(serviceIds: seq<int>, services: map<int, Service>): (r: seq<TopService>)
    ensures |r| <= 5
    ensures forall i :: 0 <= i < |r| ==> r[i].serviceId in services && r[i].name == services[r[i].serviceId].name
  {
    var top := MostCommon(serviceIds, 5);
    var kept := KeepListed(top, services);
    assert forall i :: 0 <= i < |kept| ==> kept[i] in top && kept[i].key in services;
    seq(|kept|, i requires 0 <= i < |kept| => TopService(kept[i].key, services[kept[i].key].name, kept[i].count))
  }

  /** Entry i of the top list is kept line i with its service's name. */
  lemma TopEntries(serviceIds: seq<int>, services: map<int, Service>, kept: seq<Tallied>)
    requires kept == KeepListed(MostCommon(serviceIds, 5), services)
    ensures |TopServices(serviceIds, services)| == |kept|
    ensures forall i :: 0 <= i < |kept| ==>
      TopServices(serviceIds, services)[i].serviceId == kept[i].key
      && TopServices(serviceIds, services)[i].count == kept[i].count
  {
  }

  /** The lines kept for the top list: keys booked that day with their
      exact counts, no key twice, ranked. */
  lemma TopLines(serviceIds: seq<int>, services: map<int, Service>, kept: seq<Tallied>)
    requires kept == KeepListed(MostCommon(serviceIds, 5), services)
    ensures forall i :: 0 <= i < |kept| ==>
      kept[i].key in serviceIds && kept[i].count == Occurrences(serviceIds, kept[i].key)
    ensures forall i, j :: 0 <= i < j < |kept| ==> kept[i].key != kept[j].key
    ensures Ranked(kept)
  {
    var lines := MostCommon(serviceIds, 5);
    MostCommonSpec(serviceIds, 5);
    KeepListedOrder(lines, services);
    forall i | 0 <= i < |kept|
      ensures kept[i].key in serviceIds && kept[i].count == Occurrences(serviceIds, kept[i].key)
    {
      assert kept[i] in kept;
    }
  }

  /** Every entry of the top list is a service booked that day with its
      exact number of bookings; no service appears twice and the counts
      never increase down the list. */
  lemma TopServicesSpec(serviceIds: seq<int>, services: map<int, Service>)
    ensures var r := TopServices(serviceIds, services);
      && (forall i :: 0 <= i < |r| ==>
            r[i].serviceId in serviceIds && r[i].count == Occurrences(serviceIds, r[i].serviceId))
      && (forall i, j :: 0 <= i < j < |r| ==> r[i].serviceId != r[j].serviceId)
      && (forall i, j :: 0 <= i < j < |r| ==> r[i].count >= r[j].count)
  {
    var kept := KeepListed(MostCommon(serviceIds, 5), services);
    var r := TopServices(serviceIds, services);
    TopLines(serviceIds, services, kept);
    TopEntries(serviceIds, services, kept);
    forall i, j | 0 <= i < j < |r|
      ensures r[i].count >= r[j].count
    {
      assert Ahead(kept[i], kept[j]);
    }
  }

  /** A service that exists and was booked that day but is missing from the
      top list was outranked by five keys, each booked at least as often. */
  lemma TopServicesOmitted(serviceIds: seq<int>, services: map<int, Service>, x: int)
    requires x in serviceIds && x in services
    requires var r := TopServices(serviceIds, services);
      forall i :: 0 <= i < |r| ==> r[i].serviceId != x
    ensures var lines := MostCommon(serviceIds, 5);
      |lines| == 5 && forall i :: 0 <= i < 5 ==> lines[i].count >= Occurrences(serviceIds, x)
  {
    var lines := MostCommon(serviceIds, 5);
    var kept := KeepListed(lines, services);
    TopEntries(serviceIds, services, kept);
    OmittedNotRanked(lines, services, x);
    MostCommonOmitted(serviceIds, 5, x);
  }

  /** A key with an existing service that is absent from the kept lines was
      absent from the lines. */
  lemma OmittedNotRanked(lines: seq<Tallied>, services: map<int, Service>, x: int)
    requires x in services
    requires forall k :: 0 <= k < |KeepListed(lines, services)| ==> KeepListed(lines, services)[k].key != x
    ensures forall i :: 0 <= i < |lines| ==> lines[i].key != x
  {
    forall i | 0 <= i < |lines|
      ensures lines[i].key != x
    {
      var l := lines[i];
      assert l in lines;
      assert l.key == x ==> l in KeepListed(lines, services);
    }
  }

  /** The summary the endpoint returns. `occupancy` is the ratio
      (completed minutes, capacity) that the percentage is computed from. */
  datatype Summary = Summary(
    day: int,
    barberId: int,
    totalAppointments: nat,
    byStatus: map<Status, nat>,
    revenueCompleted: int,
    minutesCompleted: int,
    capacityMinutes: Option<int>,
    occupancy: Option<(int, int)>,
    topServices: seq<TopService>)

  /** The service key of each appointment, in order. */
  function ServiceIds(appts: seq<Appointment>): (ids: seq<int>)
    ensures |ids| == |appts|
    ensures forall i :: 0 <= i < |appts| ==> ids[i] == appts[i].serviceId
  {
    seq(|appts|, i requires 0 <= i < |appts| => appts[i].serviceId)
  }

  /** `dashboard_summary`: barbers only, about the caller's own day. Every
      field is the corresponding measure of the day's appointments. */
  function DashboardSummary(db: Db, caller: Caller, day: int): (r: Result<Summary>)
    ensures r.Err? <==> caller.role != Barber
    ensures r.Err? ==> r.error == Forbidden
    ensures r.Ok? ==>
      var s := r.value;
      var appts := DayAppointments(db.appointments, caller.id, day);
      && s.day == day && s.barberId == caller.id
      && s.totalAppointments == |appts|
      && (forall st :: st in s.byStatus <==> exists i :: 0 <= i < |appts| && appts[i].status == st)
      && s.capacityMinutes == Capacity(HoursForDay(db.hours, caller.id, day))
      && (s.occupancy.Some? <==> s.capacityMinutes.Some? && s.capacityMinutes.value > 0)
      && (s.occupancy.Some? ==> s.occupancy.value == (s.minutesCompleted, s.capacityMinutes.value))
      && |s.topServices| <= 5
    ensures r.Ok? ==>
      var s := r.value;
      var appts := DayAppointments(db.appointments, caller.id, day);
      && s.byStatus == ByStatus(appts)
      && s.minutesCompleted == MinutesCompleted(appts, db.services)
      && s.revenueCompleted == RevenueCompleted(appts, db.services)
      && s.topServices == TopServices(ServiceIds(appts), db.services)
  {
    if caller.role != Barber then Err(Forbidden)
    else
      var appts := DayAppointments(db.appointments, caller.id, day);
      var minutes := MinutesCompleted(appts, db.services);
      var capacity := Capacity(HoursForDay(db.hours, caller.id, day));
      var occupancy := if capacity.Some? && capacity.value > 0 then Some((minutes, capacity.value)) else None;
      var serviceIds := ServiceIds(appts);
      Ok(Summary(day, caller.id, |appts|, ByStatus(appts), RevenueCompleted(appts, db.services),
                 minutes, capacity, occupancy, TopServices(serviceIds, db.services)))
  }

  /** The per-status counts of a summary add up to its total. */
  lemma SummaryCountsAddUp(db: Db, caller: Caller, day: int)
    requires caller.role == Barber
    ensures var s := DashboardSummary(db, caller, day).value;
      CountOf(s.byStatus, Pending) + CountOf(s.byStatus, Confirmed) + CountOf(s.byStatus, Canceled)
      + CountOf(s.byStatus, Completed) + CountOf(s.byStatus, NoShow) == s.totalAppointments
  {
    ByStatusSum(DayAppointments(db.appointments, caller.id, day));
  }

  /** Each top service of a summary was booked on the day, and its count is
      the number of the day's appointments of that service; no service is
      listed twice and the counts never increase down the list. */
  lemma SummaryTopServices(db: Db, caller: Caller, day: int)
    requires caller.role == Barber
    ensures var s := DashboardSummary(db, caller, day).value;
      var ids := ServiceIds(DayAppointments(db.appointments, caller.id, day));
      && (forall i :: 0 <= i < |s.topServices| ==>
            s.topServices[i].serviceId in ids
            && s.topServices[i].count == Occurrences(ids, s.topServices[i].serviceId))
      && (forall i, j :: 0 <= i < j < |s.topServices| ==>
            s.topServices[i].serviceId != s.topServices[j].serviceId
            && s.topServices[i].count >= s.topServices[j].count)
  {
    TopServicesSpec(ServiceIds(DayAppointments(db.appointments, caller.id, day)), db.services);
  }
}

=== FILE: lifecycle.dfy ===
/** The appointment state machine of the appointments router: cancel (time
    gated for clients), confirm and complete (barber only). Each operation
    looks the appointment up by key and commits the changed record. */
module Lifecycle {
  import opened Common
  import opened Store
  import opened Models

  /** The caller is a client and the appointment is theirs. */
  predicate ClientOwns(caller: Caller, a: Appointment) {
    caller.role == Client && a.clientId == caller.id
  }

  /** The caller is a barber and the appointment is on their agenda. */
  predicate BarberOwns(caller: Caller, a: Appointment) {
    caller.role == Barber && a.barberId == caller.id
  }

  /** `list_appointments`: a client sees the appointments they booked, a
      barber the ones on their agenda, and any other role is refused. */
  function ListAppointments(t: Table<Appointment>, caller: Caller): (r: Result<Table<Appointment>>)
    ensures r.Err? <==> caller.role == OtherRole
    ensures r.Err? ==> r.error == Forbidden
    ensures r.Ok? && caller.role == Client ==>
      forall row :: row in r.value <==> row in t && row.data.clientId == caller.id
    ensures r.Ok? && caller.role == Barber ==>
      forall row :: row in r.value <==> row in t && row.data.barberId == caller.id
  {
    match caller.role
    case Client => Ok(Select(t, (row: Row<Appointment>) => row.data.clientId == caller.id))
    case Barber => Ok(Select(t, (row: Row<Appointment>) => row.data.barberId == caller.id))
    case OtherRole => Err(Forbidden)
  }

  /** The reason recorded when a cancel request gives none. */
  const DefaultCancelReason: string := "Cancelado"

  /** `cancel_appointment`. `now` is the clock reading of the request; a
      request without a reason passes `DefaultCancelReason`. */
  function CancelAppointment(t: Table<Appointment>, id: int, caller: Caller, now: int, reason: string)
    : (r: Result<(Table<Appointment>, Appointment)>)
    ensures Get(t, id).None? ==> r == Err(AppointmentNotFound)
    ensures Get(t, id).Some? && Get(t, id).value.status == Canceled ==> r == Ok((t, Get(t, id).value))
    ensures Get(t, id).Some? && Get(t, id).value.status != Canceled ==>
      var a := Get(t, id).value;
      && (r == Err(Forbidden) <==> !ClientOwns(caller, a) && !BarberOwns(caller, a))
      && (r == Err(CancelWindowPassed) <==> ClientOwns(caller, a) && a.time - now < CancelWindow)
      && (r.Ok? <==> BarberOwns(caller, a) || (ClientOwns(caller, a) && a.time - now >= CancelWindow))
    ensures r.Ok? && Get(t, id).value.status != Canceled ==>
      var a' := Get(t, id).value.(
        status := Canceled,
        canceledAt := Some(now),
        canceledBy := Some(if caller.role == Client then ByClient else ByBarber),
        cancelReason := Some(reason));
      r.value == (Put(t, id, a'), a')
  {
    match Get(t, id)
    case None => Err(AppointmentNotFound)
    case Some(a) =>
      if a.status == Canceled then Ok((t, a))
      else
        var byClient := ClientOwns(caller, a);
        if !(byClient || BarberOwns(caller, a)) then Err(Forbidden)
        else if byClient && a.time - now < CancelWindow then Err(CancelWindowPassed)
        else
          var a' := a.(status := Canceled,
                       canceledAt := Some(now),
                       canceledBy := Some(if byClient then ByClient else ByBarber),
                       cancelReason := Some(reason));
          Ok((Put(t, id, a'), a'))
  }

  /** The shared body of confirm and complete: barbers only (checked before
      the lookup), the appointment must be theirs, and neither canceled nor
      completed; then only the status changes. */
  function Advance(t: Table<Appointment>, id: int, caller: Caller, target: Status)
    : (r: Result<(Table<Appointment>, Appointment)>)
    requires target == Confirmed || target == Completed
    ensures caller.role != Barber ==> r == Err(Forbidden)
    ensures caller.role == Barber && Get(t, id).None? ==> r == Err(AppointmentNotFound)
    ensures caller.role == Barber && Get(t, id).Some? ==>
      var a := Get(t, id).value;
      && (a.barberId != caller.id ==> r == Err(Forbidden))
      && (a.barberId == caller.id && a.status in {Canceled, Completed} ==> r == Err(InvalidTransition))
    ensures r.Ok? <==>
      caller.role == Barber && Get(t, id).Some? && Get(t, id).value.barberId == caller.id
      && Get(t, id).value.status !in {Canceled, Completed}
    ensures r.Ok? ==>
      var a' := Get(t, id).value.(status := target);
      r.value == (Put(t, id, a'), a')
  {
    if caller.role != Barber then Err(Forbidden)
    else
      match Get(t, id)
      case None => Err(AppointmentNotFound)
      case Some(a) =>
        if a.barberId != caller.id then Err(Forbidden)
        else if a.status == Canceled || a.status == Completed then Err(InvalidTransition)
        else
          var a' := a.(status := target);
          Ok((Put(t, id, a'), a'))
  }

  /** `confirm_appointment`. */
  function ConfirmAppointment(t: Table<Appointment>, id: int, caller: Caller)
    : (r: Result<(Table<Appointment>, Appointment)>)
    ensures r.Ok? ==> r.value.1.status == Confirmed && Get(r.value.0, id) == Some(r.value.1)
    ensures r.Ok? ==> Get(t, id).Some? && Get(t, id).value.status in {Pending, Confirmed, NoShow}
  {
    Advance(t, id, caller, Confirmed)
  }

  /** `complete_appointment`. */
  function CompleteAppointment(t: Table<Appointment>, id: int, caller: Caller)
    : (r: Result<(Table<Appointment>, Appointment)>)
    ensures r.Ok? ==> r.value.1.status == Completed && Get(r.value.0, id) == Some(r.value.1)
    ensures r.Ok? ==> Get(t, id).Some? && Get(t, id).value.status in {Pending, Confirmed, NoShow}
  {
    Advance(t, id, caller, Completed)
  }

  /** Canceling twice: the second call, by anyone, at any later time and with
      any reason, returns the first call's record and table unchanged, so
      the cancellation stamp stays the first one. */
  lemma CancelIdempotent(t: Table<Appointment>, id: int, caller: Caller, now: int, reason: string,
                         caller2: Caller, now2: int, reason2: string)
    requires CancelAppointment(t, id, caller, now, reason).Ok?
    ensures var (t1, a1) := CancelAppointment(t, id, caller, now, reason).value;
      CancelAppointment(t1, id, caller2, now2, reason2) == Ok((t1, a1))
  {
    var (t1, a1) := CancelAppointment(t, id, caller, now, reason).value;
    assert Get(t1, id) == Some(a1);
  }

  /** Whichever operation runs, a canceled appointment stays canceled:
      cancel returns it as it is and confirm and complete refuse it. */
  lemma CanceledIsTerminal(t: Table<Appointment>, id: int, caller: Caller, now: int, reason: string)
    requires Get(t, id).Some? && Get(t, id).value.status == Canceled
    ensures CancelAppointment(t, id, caller, now, reason) == Ok((t, Get(t, id).value))
    ensures ConfirmAppointment(t, id, caller).Err?
    ensures CompleteAppointment(t, id, caller).Err?
  {
  }

  /** A completed appointment is not protected from cancellation: its
      barber can still cancel it. */
  lemma CompletedCanBeCanceled(t: Table<Appointment>, id: int, caller: Caller, now: int, reason: string)
    requires Get(t, id).Some? && Get(t, id).value.status == Completed
    requires BarberOwns(caller, Get(t, id).value)
    ensures CancelAppointment(t, id, caller, now, reason).Ok?
    ensures CancelAppointment(t, id, caller, now, reason).value.1.status == Canceled
  {
  }

  /** Every row of the table that is canceled records when, by whom and why. */
  predicate AllCancelsRecorded(t: Table<Appointment>) {
    forall j :: 0 <= j < |t| ==> CancelRecorded(t[j].data)
  }

  lemma PutKeepsRecorded(t: Table<Appointment>, id: int, a: Appointment)
    requires AllCancelsRecorded(t) && CancelRecorded(a)
    ensures AllCancelsRecorded(Put(t, id, a))
  {
  }

  /** Overwriting a record that is not canceled leaves every canceled row
      as it was. */
  lemma PutKeepsCanceled(t: Table<Appointment>, id: int, a: Appointment)
    requires Get(t, id).Some? ==> Get(t, id).value.status != Canceled
    ensures |Put(t, id, a)| == |t|
    ensures forall j :: 0 <= j < |t| && t[j].data.status == Canceled ==> Put(t, id, a)[j] == t[j]
  {
    var p := (row: Row<Appointment>) => row.id == id;
    if k :| Find(t, p) == Some(k) {
      assert t[k].data == Get(t, id).value;
      assert Put(t, id, a) == t[k := Row(id, a)];
    }
  }

  /** No state-machine step ever produces a record with status no_show, and
      every step leaves the rows that were already canceled exactly as they
      were, so their cancellation stamp, author and reason stay in place and
      every canceled row keeps recording them. */
  lemma StepsKeepInvariants(t: Table<Appointment>, id: int, caller: Caller, now: int, reason: string)
    requires AllCancelsRecorded(t)
    ensures var r := CancelAppointment(t, id, caller, now, reason);
      r.Ok? ==> r.value.1.status == Canceled && AllCancelsRecorded(r.value.0)
    ensures var r := CancelAppointment(t, id, caller, now, reason);
      r.Ok? ==> (|r.value.0| == |t| &&
                 forall j :: 0 <= j < |t| && t[j].data.status == Canceled ==> r.value.0[j] == t[j])
    ensures var r := ConfirmAppointment(t, id, caller);
      r.Ok? ==> r.value.1.status == Confirmed && AllCancelsRecorded(r.value.0)
    ensures var r := ConfirmAppointment(t, id, caller);
      r.Ok? ==> (|r.value.0| == |t| &&
                 forall j :: 0 <= j < |t| && t[j].data.status == Canceled ==> r.value.0[j] == t[j])
    ensures var r := CompleteAppointment(t, id, caller);
      r.Ok? ==> r.value.1.status == Completed && AllCancelsRecorded(r.value.0)
    ensures var r := CompleteAppointment(t, id, caller);
      r.Ok? ==> (|r.value.0| == |t| &&
                 forall j :: 0 <= j < |t| && t[j].data.status == Canceled ==> r.value.0[j] == t[j])
  {
    var r := CancelAppointment(t, id, caller, now, reason);
    if r.Ok? && Get(t, id).value.status != Canceled {
      PutKeepsRecorded(t, id, r.value.1);
      PutKeepsCanceled(t, id, r.value.1);
    }
    var c := ConfirmAppointment(t, id, caller);
    if c.Ok? {
      PutKeepsRecorded(t, id, c.value.1);
      PutKeepsCanceled(t, id, c.value.1);
    }
    var d := CompleteAppointment(t, id, caller);
    if d.Ok? {
      PutKeepsRecorded(t, id, d.value.1);
      PutKeepsCanceled(t, id, d.value.1);
    }
  }

  /** The state-machine steps never touch the payment status. */
  lemma StepsKeepPaymentStatus(t: Table<Appointment>, id: int, caller: Caller, now: int, reason: string)
    requires Get(t, id).Some?
    ensures var r := CancelAppointment(t, id, caller, now, reason);
      r.Ok? ==> r.value.1.paymentStatus == Get(t, id).value.paymentStatus
    ensures var r := ConfirmAppointment(t, id, caller);
      r.Ok? ==> r.value.1.paymentStatus == Get(t, id).value.paymentStatus
    ensures var r := CompleteAppointment(t, id, caller);
      r.Ok? ==> r.value.1.paymentStatus == Get(t, id).value.paymentStatus
  {
  }

  /** A cancel request that gives no reason records the default one. */
  lemma DefaultReasonRecorded(t: Table<Appointment>, id: int, caller: Caller, now: int)
    requires Get(t, id).Some? && Get(t, id).value.status != Canceled
    requires CancelAppointment(t, id, caller, now, DefaultCancelReason).Ok?
    ensures var a := CancelAppointment(t, id, caller, now, DefaultCancelReason).value.1;
      a.cancelReason == Some("Cancelado") && Get(CancelAppointment(t, id, caller, now, DefaultCancelReason).value.0, id) == Some(a)
  {
  }
}

=== FILE: models.dfy ===
/** The persisted records: appointments, operating rules, time blocks,
    payments and the services they refer to, plus the whole store. */
module Models {
  import opened Common
  import opened Store

  /** pending | confirmed | canceled | completed | no_show */
  datatype Status = Pending | Confirmed | Canceled | Completed | NoShow

  /** unpaid | paid | refunded */
  datatype PaymentStatus = Unpaid | Paid | Refunded

  /** Who canceled: the `canceled_by` strings "client" and "barber". */
  datatype Canceller = ByClient | ByBarber

  /** A bookable service of one barber. Prices are integer cents. */
  datatype Service = Service(
    name: string,
    durationMinutes: int,
    price: int,
    active: bool,
    barberId: int)

  /** An appointment. `time` is the slot start, in minutes; the three
      snapshot fields are plain required fields of the record. */
  datatype Appointment = Appointment(
    clientId: int,
    barberId: int,
    serviceId: int,
    time: int,
    serviceNameSnapshot: string,
    servicePriceSnapshot: int,
    serviceDurationSnapshot: int,
    status: Status,
    paymentStatus: PaymentStatus,
    createdAt: int,
    canceledAt: Option<int>,
    canceledBy: Option<Canceller>,
    cancelReason: Option<string>)

  /** An appointment record as built from its required fields, every other
      field taking its declared default. */
  function NewAppointment(
    clientId: int, barberId: int, serviceId: int, time: int,
    name: string, price: int, duration: int, createdAt: int): (a: Appointment)
    ensures a.status == Pending && a.paymentStatus == Unpaid
    ensures a.canceledAt.None? && a.canceledBy.None? && a.cancelReason.None?
    ensures CancelRecorded(a)
  {
    Appointment(clientId, barberId, serviceId, time, name, price, duration,
                Pending, Unpaid, createdAt, None, None, None)
  }

  /** A canceled appointment carries its cancellation stamp, author and reason. */
  predicate CancelRecorded(a: Appointment) {
    a.status == Canceled ==>
      a.canceledAt.Some? && a.canceledBy.Some? && a.cancelReason.Some?
  }

  /** A manual unavailability window of one barber, in minutes. */
  datatype TimeBlock = TimeBlock(barberId: int, start: int, end: int, reason: string)

  const DefaultBlockReason: string := "Bloqueio"

  /** A block built from its owner and bounds alone takes the declared
      default reason. */
  function NewTimeBlock(barberId: int, start: int, end: int): (b: TimeBlock)
    ensures b.barberId == barberId && b.start == start && b.end == end
    ensures b.reason == DefaultBlockReason
  {
    TimeBlock(barberId, start, end, DefaultBlockReason)
  }

  /** The operating rule of one barber for one weekday (0 = Monday). Every
      bound is optional. */
  datatype BusinessHours = BusinessHours(
    barberId: int,
    weekday: int,
    isClosed: bool,
    openTime: Option<TimeOfDay>,
    closeTime: Option<TimeOfDay>,
    lunchStart: Option<TimeOfDay>,
    lunchEnd: Option<TimeOfDay>)
  {
    /** Every reader treats a rule as open only when it is not flagged closed
        and has both bounds. */
    predicate IsOpen() {
      !isClosed && openTime.Some? && closeTime.Some?
    }

    /** Lunch applies only when both of its bounds are set. */
    predicate HasLunch() {
      lunchStart.Some? && lunchEnd.Some?
    }
  }

  /** A rule row built from its key alone takes the declared defaults: not
      flagged closed, no bounds, no lunch. */
  function NewBusinessHours(barberId: int, weekday: int): (h: BusinessHours)
    ensures !h.isClosed && !h.IsOpen() && !h.HasLunch()
    ensures h.openTime.None? && h.closeTime.None? && h.lunchStart.None? && h.lunchEnd.None?
  {
    BusinessHours(barberId, weekday, false, None, None, None, None)
  }

  /** pending | paid | failed | refunded */
  datatype PaymentState = PaymentPending | PaymentPaid | PaymentFailed | PaymentRefunded

  /** A payment record. Amounts are integer cents. */
  datatype Payment = Payment(
    appointmentId: int,
    provider: string,
    externalId: Option<string>,
    amount: int,
    status: PaymentState,
    createdAt: int,
    paidAt: Option<int>)

  /** The whole store. Services are only read here, so they are a map from
      key to record; the other tables are sequences of rows. */
  datatype Db = Db(
    services: map<int, Service>,
    appointments: Table<Appointment>,
    blocks: Table<TimeBlock>,
    hours: Table<BusinessHours>,
    payments: Table<Payment>)
}

=== FILE: payments.dfy ===
/** The simulated payment router: a client opens a manual payment for a
    completed appointment, and a barber marks it paid. */
module Payments {
  import opened Common
  import opened Store
  import opened Models

  /** `service_price_snapshot or 0`: a zero snapshot falls back to zero. */
  function AmountOf(priceSnapshot: int): (amount: int)
    ensures amount == priceSnapshot
  {
    if priceSnapshot != 0 then priceSnapshot else 0
  }

  /** `create_payment`. Refusals in order: missing appointment, caller not
      the appointment's client (whatever their role), appointment not
      completed. The new payment is manual, pending, and charges the price
      snapshot. */
  function CreatePayment(db: Db, caller: Caller, appointmentId: int, now: int)
    : (r: Result<(Db, Row<Payment>)>)
    ensures Get(db.appointments, appointmentId).None? ==> r == Err(AppointmentNotFound)
    ensures Get(db.appointments, appointmentId).Some? ==>
      var a := Get(db.appointments, appointmentId).value;
      && (a.clientId != caller.id ==> r == Err(Forbidden))
      && (a.clientId == caller.id && a.status != Completed ==> r == Err(NotCompleted))
      && (r.Ok? <==> a.clientId == caller.id && a.status == Completed)
    ensures r.Ok? ==>
      var p := r.value.1.data;
      && p.appointmentId == appointmentId
      && p.provider == "manual"
      && p.status == PaymentPending
      && p.amount == Get(db.appointments, appointmentId).value.servicePriceSnapshot
      && p.paidAt.None?
      && r.value.0 == db.(payments := db.payments + [r.value.1])
      && Get(db.payments, r.value.1.id).None?
  {
    match Get(db.appointments, appointmentId)
    case None => Err(AppointmentNotFound)
    case Some(a) =>
      if a.clientId != caller.id then Err(Forbidden)
      else if a.status != Completed then Err(NotCompleted)
      else
        var p := Payment(appointmentId, "manual", None, AmountOf(a.servicePriceSnapshot),
                         PaymentPending, now, None);
        var (payments', id) := Insert(db.payments, p);
        Ok((db.(payments := payments'), Row(id, p)))
  }

  /** `confirm_payment`. A missing payment is refused before the role; any
      barber may then confirm, with no ownership or appointment-status
      check. A payment whose appointment is gone fails on the attribute
      write and nothing is committed. */
  function ConfirmPayment(db: Db, caller: Caller, paymentId: int, now: int)
    : (r: Result<(Db, Payment)>)
    ensures Get(db.payments, paymentId).None? ==> r == Err(PaymentNotFound)
    ensures Get(db.payments, paymentId).Some? && caller.role != Barber ==> r == Err(Forbidden)
    ensures r.Ok? <==>
      && Get(db.payments, paymentId).Some?
      && caller.role == Barber
      && Get(db.appointments, Get(db.payments, paymentId).value.appointmentId).Some?
    ensures r.Ok? ==>
      var p := Get(db.payments, paymentId).value;
      var a := Get(db.appointments, p.appointmentId).value;
      && r.value.1 == p.(status := PaymentPaid, paidAt := Some(now))
      && Get(r.value.0.payments, paymentId) == Some(r.value.1)
      && Get(r.value.0.appointments, p.appointmentId) == Some(a.(paymentStatus := Paid))
      && (forall k :: k != paymentId ==> Get(r.value.0.payments, k) == Get(db.payments, k))
      && (forall k :: k != p.appointmentId ==> Get(r.value.0.appointments, k) == Get(db.appointments, k))
      && r.value.0.services == db.services
      && r.value.0.blocks == db.blocks
      && r.value.0.hours == db.hours
  {
    match Get(db.payments, paymentId)
    case None => Err(PaymentNotFound)
    case Some(p) =>
      var appt := Get(db.appointments, p.appointmentId);
      if caller.role != Barber then Err(Forbidden)
      else
        match appt
        case None => Err(MissingAppointment)
        case Some(a) =>
          var p' := p.(status := PaymentPaid, paidAt := Some(now));
          var a' := a.(paymentStatus := Paid);
          Ok((db.(payments := Put(db.payments, paymentId, p'),
                  appointments := Put(db.appointments, p.appointmentId, a')), p'))
  }

  /** Confirming again leaves both statuses paid and only moves the payment
      stamp to the later clock reading. */
  lemma ConfirmPaymentTwice(db: Db, caller: Caller, paymentId: int, now: int, later: int)
    requires ConfirmPayment(db, caller, paymentId, now).Ok?
    ensures var (db1, p1) := ConfirmPayment(db, caller, paymentId, now).value;
      var r := ConfirmPayment(db1, caller, paymentId, later);
      && r.Ok?
      && r.value.1 == p1.(paidAt := Some(later))
      && r.value.1.status == PaymentPaid
      && Get(r.value.0.appointments, p1.appointmentId).value.paymentStatus == Paid
      && r.value.0.appointments == db1.appointments
  {
    var (db1, p1) := ConfirmPayment(db, caller, paymentId, now).value;
    var a1 := Get(db1.appointments, p1.appointmentId).value;
    assert Get(db1.payments, paymentId) == Some(p1);
    assert a1.paymentStatus == Paid;
    assert Put(db1.appointments, p1.appointmentId, a1.(paymentStatus := Paid)) == db1.appointments by {
      PutSameRecord(db1.appointments, p1.appointmentId);
    }
  }

  /** A barber can mark paid a payment whose appointment is not even
      completed, and one on another barber's appointment. */
  lemma ConfirmIgnoresOwnerAndStatus(db: Db, caller: Caller, paymentId: int, now: int)
    requires caller.role == Barber
    requires Get(db.payments, paymentId).Some?
    requires Get(db.appointments, Get(db.payments, paymentId).value.appointmentId).Some?
    ensures ConfirmPayment(db, caller, paymentId, now).Ok?
  {
  }
}

=== FILE: ranking.dfy ===
/** A multiset tally of integer keys and its `most_common(k)` prefix: keys
    iterate in the order they were first seen, and ranking sorts them by
    count, highest first, keeping that order among equal counts. */
module Ranking {

  /** One line of a tally: a key, how often it occurs, and the position of
      the key in first-seen order. */
  datatype Tallied = Tallied(key: int, count: nat, rank: nat)

  /** How many times x occurs in xs. */
  function Occurrences(xs: seq<int>, x: int): (n: nat)
    ensures n <= |xs|
    ensures n == 0 <==> x !in xs
  {
    if |xs| == 0 then 0
    else
      assert xs == xs[..|xs| - 1] + [xs[|xs| - 1]];
      Occurrences(xs[..|xs| - 1], x) + (if xs[|xs| - 1] == x then 1 else 0)
  }

  /** The distinct keys of xs in the order of their first occurrence. */
  function Distinct(xs: seq<int>): (r: seq<int>)
    ensures forall x :: x in r <==> x in xs
    ensures forall i, j :: 0 <= i < j < |r| ==> r[i] != r[j]
  {
    if |xs| == 0 then []
    else
      var init := xs[..|xs| - 1];
      var last := xs[|xs| - 1];
      assert xs == init + [last];
      if last in init then Distinct(init) else Distinct(init) + [last]
  }

  /** The distinct keys come in first-seen order: a key listed before
      another occurs in xs before any occurrence of the other. */
  lemma {:induction false} DistinctFirstSeen(xs: seq<int>)
    ensures forall i, j, k :: 0 <= i < j < |Distinct(xs)| && 0 <= k < |xs| && xs[k] == Distinct(xs)[j] ==>
      Distinct(xs)[i] in xs[..k]
  {
    if |xs| > 0 {
      var init := xs[..|xs| - 1];
      var last := xs[|xs| - 1];
      var d := Distinct(init);
      DistinctFirstSeen(init);
      assert xs == init + [last];
      assert init == xs[..|xs| - 1];
      forall i, j, k | 0 <= i < j < |d| && 0 <= k < |init| && init[k] == d[j]
        ensures d[i] in init[..k]
      {
      }
      if last in init {
        DistinctOrderKept(xs, d);
      } else {
        DistinctOrderExtended(xs, d, d + [last]);
      }
    }
  }

  /** The first-seen order of the prefix still holds once the prefix's
      last key repeats. */
  lemma DistinctOrderKept(xs: seq<int>, d: seq<int>)
    requires |xs| > 0 && xs[|xs| - 1] in xs[..|xs| - 1]
    requires forall x :: x in d <==> x in xs[..|xs| - 1]
    requires var init := xs[..|xs| - 1];
      forall i, j, k :: 0 <= i < j < |d| && 0 <= k < |init| && init[k] == d[j] ==> d[i] in init[..k]
    ensures forall i, j, k :: 0 <= i < j < |d| && 0 <= k < |xs| && xs[k] == d[j] ==> d[i] in xs[..k]
  {
    var init := xs[..|xs| - 1];
    forall i, j, k | 0 <= i < j < |d| && 0 <= k < |xs| && xs[k] == d[j]
      ensures d[i] in xs[..k]
    {
      if k == |xs| - 1 {
        assert d[j] in d;
        var k' :| 0 <= k' < |init| && init[k'] == d[j];
        assert d[i] in init[..k'];
        assert init[..k'] == xs[..k'] && xs[..k'] <= xs[..k];
      } else {
        assert init[k] == xs[k];
        assert xs[..k] == init[..k];
      }
    }
  }

  /** Appending a key never seen before keeps first-seen order. */
  lemma DistinctOrderExtended(xs: seq<int>, d: seq<int>, r: seq<int>)
    requires |xs| > 0 && xs[|xs| - 1] !in xs[..|xs| - 1]
    requires forall x :: x in d <==> x in xs[..|xs| - 1]
    requires var init := xs[..|xs| - 1];
      forall i, j, k :: 0 <= i < j < |d| && 0 <= k < |init| && init[k] == d[j] ==> d[i] in init[..k]
    requires r == d + [xs[|xs| - 1]]
    ensures forall i, j, k :: 0 <= i < j < |r| && 0 <= k < |xs| && xs[k] == r[j] ==> r[i] in xs[..k]
  {
    var init := xs[..|xs| - 1];
    forall i, j, k | 0 <= i < j < |r| && 0 <= k < |xs| && xs[k] == r[j]
      ensures r[i] in xs[..k]
    {
      assert r[i] == d[i] && d[i] in d;
      if j == |d| {
        assert k == |xs| - 1;
        assert xs[..k] == init;
      } else {
        assert r[j] == d[j] && d[j] in d;
        assert k < |xs| - 1;
        assert init[k] == xs[k];
        assert xs[..k] == init[..k];
      }
    }
  }

  /** `Counter(xs)` read in iteration order: one line per distinct key, in
      first-seen order, with its number of occurrences. */
  function Tally(xs: seq<int>): (r: seq<Tallied>)
    ensures |r| == |Distinct(xs)|
    ensures forall i :: 0 <= i < |r| ==>
      r[i] == Tallied(Distinct(xs)[i], Occurrences(xs, Distinct(xs)[i]), i)
  {
    var d := Distinct(xs);
    seq(|d|, i requires 0 <= i < |d| => Tallied(d[i], Occurrences(xs, d[i]), i))
  }

  /** a ranks ahead of b: a higher count, or the same count and seen first. */
  predicate Ahead(a: Tallied, b: Tallied) {
    a.count > b.count || (a.count == b.count && a.rank < b.rank)
  }

  /** Each line ranks ahead of every later line. */
  predicate Ranked(s: seq<Tallied>) {
    forall i, j :: 0 <= i < j < |s| ==> Ahead(s[i], s[j])
  }

  /** Places e after every line whose count is at least e's. */
  function InsertRanked(s: seq<Tallied>, e: Tallied): (r: seq<Tallied>)
    ensures multiset(r) == multiset(s) + multiset{e}
    ensures forall x :: x in r <==> x in s || x == e
  {
    if |s| == 0 then [e]
    else if s[0].count >= e.count then
      assert s == [s[0]] + s[1..];
      [s[0]] + InsertRanked(s[1..], e)
    else [e] + s
  }

  /** Inserting a line seen after every line of a ranked list keeps the
      list ranked. */
  lemma {:induction false} InsertRankedOrder(s: seq<Tallied>, e: Tallied)
    requires Ranked(s)
    requires forall i :: 0 <= i < |s| ==> s[i].rank < e.rank
    ensures Ranked(InsertRanked(s, e))
  {
    if |s| > 0 {
      if s[0].count >= e.count {
        var tail := s[1..];
        var rest := InsertRanked(tail, e);
        InsertRankedOrder(tail, e);
        var r := [s[0]] + rest;
        forall m | 0 <= m < |rest|
          ensures Ahead(s[0], rest[m])
        {
          assert rest[m] in rest;
          if rest[m] != e {
            var q :| 0 <= q < |tail| && tail[q] == rest[m];
            assert s[q + 1] == rest[m];
          }
        }
        forall i, j | 0 <= i < j < |r|
          ensures Ahead(r[i], r[j])
        {
          if i > 0 {
            assert r[i] == rest[i - 1] && r[j] == rest[j - 1];
          } else {
            assert r[j] == rest[j - 1];
          }
        }
      } else {
        var r := [e] + s;
        forall i, j | 0 <= i < j < |r|
          ensures Ahead(r[i], r[j])
        {
          if i > 0 {
            assert r[i] == s[i - 1] && r[j] == s[j - 1];
          } else {
            assert Ahead(s[0], s[j - 1]) || j == 1;
          }
        }
      }
    }
  }

  /** Stable sort by count, highest first: the `sorted(..., reverse=True)`
      that `most_common` performs. */
  function SortRanked(s: seq<Tallied>): (r: seq<Tallied>)
    requires forall i, j :: 0 <= i < j < |s| ==> s[i].rank < s[j].rank
    ensures Ranked(r)
    ensures multiset(r) == multiset(s)
    ensures |r| == |s|
    ensures forall x :: x in r <==> x in s
  {
    if |s| == 0 then []
    else
      var init := s[..|s| - 1];
      var sorted := SortRanked(init);
      assert s == init + [s[|s| - 1]];
      assert forall i :: 0 <= i < |sorted| ==> sorted[i] in init;
      InsertRankedOrder(sorted, s[|s| - 1]);
      var r := InsertRanked(sorted, s[|s| - 1]);
      assert |r| == |multiset(r)|;
      r
  }

  /** `Counter(xs).most_common(k)`: the first k lines of the ranked tally. */
  function MostCommon(xs: seq<int>, k: nat): (r: seq<Tallied>)
    ensures |r| == (if |Distinct(xs)| <= k then |Distinct(xs)| else k)
    ensures forall i :: 0 <= i < |r| ==> r[i] == SortRanked(Tally(xs))[i]
  {
    var s := SortRanked(Tally(xs));
    if |s| <= k then s else s[..k]
  }

  /** A tally line is the line at its own rank: a key of xs with its
      exact count. */
  lemma TallyLine(xs: seq<int>, x: Tallied)
    requires x in Tally(xs)
    ensures x.rank < |Tally(xs)| && Tally(xs)[x.rank] == x
    ensures x.key in xs && x.count == Occurrences(xs, x.key)
  {
    var t := Tally(xs);
    var a :| 0 <= a < |t| && t[a] == x;
    assert Distinct(xs)[a] in Distinct(xs);
  }

  /** The ranked tally: every line is a key of xs with its count, and no
      key appears twice. */
  lemma RankedTally(xs: seq<int>)
    ensures forall i :: 0 <= i < |SortRanked(Tally(xs))| ==>
      SortRanked(Tally(xs))[i].key in xs && SortRanked(Tally(xs))[i].count == Occurrences(xs, SortRanked(Tally(xs))[i].key)
    ensures forall i, j :: 0 <= i < j < |SortRanked(Tally(xs))| ==> SortRanked(Tally(xs))[i].key != SortRanked(Tally(xs))[j].key
  {
    var t := Tally(xs);
    var s := SortRanked(t);
    forall i | 0 <= i < |s|
      ensures s[i].key in xs && s[i].count == Occurrences(xs, s[i].key)
    {
      assert s[i] in s;
      TallyLine(xs, s[i]);
    }
    forall i, j | 0 <= i < j < |s|
      ensures s[i].key != s[j].key
    {
      assert s[i] in s && s[j] in s;
      TallyLine(xs, s[i]);
      TallyLine(xs, s[j]);
      assert Ahead(s[i], s[j]);
    }
  }

  /** Every key of xs has a line in the ranked tally, carrying its count. */
  lemma RankOfKey(xs: seq<int>, x: int) returns (p: nat)
    requires x in xs
    ensures var s := SortRanked(Tally(xs));
      p < |s| && s[p].key == x && s[p].count == Occurrences(xs, x)
  {
    var t := Tally(xs);
    var d := Distinct(xs);
    var s := SortRanked(t);
    var a :| 0 <= a < |d| && d[a] == x;
    assert t[a] in t;
    p :| 0 <= p < |s| && s[p] == t[a];
  }

  /** A key of xs that `most_common(k)` leaves out is outranked by k
      listed lines, each counted at least as often. */
  lemma MostCommonOmitted(xs: seq<int>, k: nat, x: int)
    requires x in xs
    requires var r := MostCommon(xs, k);
      forall i :: 0 <= i < |r| ==> r[i].key != x
    ensures var r := MostCommon(xs, k);
      |r| == k && forall i :: 0 <= i < |r| ==> r[i].count >= Occurrences(xs, x)
  {
    var s := SortRanked(Tally(xs));
    var r := MostCommon(xs, k);
    var p := RankOfKey(xs, x);
    assert p >= |r|;
    forall i | 0 <= i < |r|
      ensures r[i].count >= Occurrences(xs, x)
    {
      assert Ahead(s[i], s[p]);
    }
  }

  /** What `most_common(k)` promises: at most k lines, each a key of xs with
      its exact count, no key twice, ranked by count with first-seen order
      among ties, and every key left out is outranked by k listed ones. */
  lemma {:induction false} MostCommonSpec(xs: seq<int>, k: nat)
    ensures var r := MostCommon(xs, k);
      && |r| == (if |Distinct(xs)| <= k then |Distinct(xs)| else k)
      && (forall i :: 0 <= i < |r| ==> r[i].key in xs && r[i].count == Occurrences(xs, r[i].key))
      && (forall i, j :: 0 <= i < j < |r| ==> r[i].key != r[j].key)
      && Ranked(r)
      && (forall x :: x in xs && (forall i :: 0 <= i < |r| ==> r[i].key != x) ==>
            |r| == k && forall i :: 0 <= i < |r| ==> r[i].count >= Occurrences(xs, x))
  {
    var s := SortRanked(Tally(xs));
    var r := MostCommon(xs, k);
    RankedTally(xs);
    forall i, j | 0 <= i < j < |r|
      ensures Ahead(r[i], r[j]) && r[i].key != r[j].key
    {
      assert r[i] == s[i] && r[j] == s[j];
      assert s[i].key != s[j].key;
    }
    forall x | x in xs && (forall i :: 0 <= i < |r| ==> r[i].key != x)
      ensures |r| == k && forall i :: 0 <= i < |r| ==> r[i].count >= Occurrences(xs, x)
    {
      MostCommonOmitted(xs, k, x);
    }
  }
}

=== FILE: scenarios.dfy ===
/** Worked examples of the scheduling rules on small concrete stores: one
    barber (key 1), one 30-minute service (key 1), and a day `day` whose
    weekday has the rule 08:00-20:00. */
module Scenarios {
  import opened Common
  import opened Store
  import opened Models
  import opened Schedule
  import opened Booking
  import opened Lifecycle

  const Barber1: Caller := Caller(1, Barber)
  const Client2: Caller := Caller(2, Client)

  /** The 30-minute service of barber 1. */
  const Haircut: Service := Service("Corte", 30, 5000, true, 1)

  /** Barber 1's rule for the day: open 08:00-20:00, with the given lunch. */
  function RuleFor(day: int, lunchStart: Option<TimeOfDay>, lunchEnd: Option<TimeOfDay>): BusinessHours {
    BusinessHours(1, Weekday(day), false, Some(8 * 60), Some(20 * 60), lunchStart, lunchEnd)
  }

  /** A pending booking of the haircut by client 2 at the given minute of the day. */
  function HaircutAt(day: int, minute: TimeOfDay): Appointment {
    NewAppointment(2, 1, 1, Combine(day, minute), "Corte", 5000, 30, 0)
  }

  /** The store of the examples: the haircut, the rule, and the given bookings. */
  function StoreWith(day: int, lunchStart: Option<TimeOfDay>, lunchEnd: Option<TimeOfDay>,
                     appointments: Table<Appointment>): Db {
    Db(map[1 := Haircut], appointments, [], [Row(1, RuleFor(day, lunchStart, lunchEnd))], [])
  }

  /** The day's schedule of the example store is open 08:00-20:00. */
  lemma ExampleSchedule(day: int, lunchStart: Option<TimeOfDay>, lunchEnd: Option<TimeOfDay>,
                        appointments: Table<Appointment>)
    ensures var sch := ScheduleFor(StoreWith(day, lunchStart, lunchEnd, appointments), 1, day);
      && sch.Some?
      && sch.value.window == Interval(Combine(day, 8 * 60), Combine(day, 20 * 60))
      && sch.value.lunch == LunchOf(day, RuleFor(day, lunchStart, lunchEnd))
  {
    var db := StoreWith(day, lunchStart, lunchEnd, appointments);
    assert RuleOf(db.hours[0].data, 1, Weekday(day));
  }

  /** An empty open day lists 47 slots for a 30-minute service, the first
      at 08:00 and the last ending at 20:00. */
  lemma EmptyDayListsEveryQuarterHour(day: int)
    ensures var a := AvailableSlots(StoreWith(day, None, None, []), 1, day);
      && a.Ok? && a.value.Open?
      && |a.value.slots| == 47
      && Interval(Combine(day, 8 * 60), Combine(day, 8 * 60 + 30)) in a.value.slots
      && Interval(Combine(day, 19 * 60 + 30), Combine(day, 20 * 60)) in a.value.slots
  {
    var db := StoreWith(day, None, None, []);
    ExampleSchedule(day, None, None, []);
    var sch := ScheduleFor(db, 1, day).value;
    assert sch.busy == [];
    FreeGridCount(Combine(day, 8 * 60), Combine(day, 20 * 60), 30);
    assert OnGrid(sch.window.start, Combine(day, 19 * 60 + 30)) by {
      assert Combine(day, 19 * 60 + 30) - Combine(day, 8 * 60) == 46 * SlotStep;
    }
  }

  /** With a haircut booked 10:00-10:30, a haircut at 10:15 is refused and
      one at 10:30 is accepted. */
  lemma OverlappingBookingRefused(day: int)
    ensures var db := StoreWith(day, None, None, [Row(1, HaircutAt(day, 10 * 60))]);
      && CreateAppointment(db, Client2, HaircutAt(day, 10 * 60 + 15)) == Err(SlotTaken)
      && CreateAppointment(db, Client2, HaircutAt(day, 10 * 60 + 30)).Ok?
  {
    var booked := HaircutAt(day, 10 * 60);
    var db := StoreWith(day, None, None, [Row(1, booked)]);
    ExampleSchedule(day, None, None, [Row(1, booked)]);
    var sch := ScheduleFor(db, 1, day).value;
    var taken := Interval(booked.time, booked.time + 30);
    assert taken in sch.busy by {
      assert db.appointments[0].data == booked;
    }
    var early := HaircutAt(day, 10 * 60 + 15);
    assert ScheduleAt(db, early) == Some(sch);
    assert Overlaps(Requested(db, early), taken);
    var late := HaircutAt(day, 10 * 60 + 30);
    assert ScheduleAt(db, late) == Some(sch);
    forall iv | iv in sch.busy
      ensures !Overlaps(Requested(db, late), iv)
    {
      assert iv == taken;
    }
  }

  /** With lunch 12:00-13:00, a haircut at 12:30 or at 11:45 is refused for
      lunch, and one at 11:00 is accepted. */
  lemma LunchBookingRefused(day: int)
    ensures var db := StoreWith(day, Some(12 * 60), Some(13 * 60), []);
      && CreateAppointment(db, Client2, HaircutAt(day, 12 * 60 + 30)) == Err(LunchConflict)
      && CreateAppointment(db, Client2, HaircutAt(day, 11 * 60 + 45)) == Err(LunchConflict)
      && CreateAppointment(db, Client2, HaircutAt(day, 11 * 60)).Ok?
  {
    LunchRefusedAt(day, 12 * 60 + 30);
    LunchRefusedAt(day, 11 * 60 + 45);
    BeforeLunchAccepted(day);
  }

  /** With lunch 12:00-13:00, every haircut whose half hour meets the lunch
      hour is refused for lunch. */
  lemma LunchRefusedAt(day: int, minute: TimeOfDay)
    requires 11 * 60 + 30 < minute < 13 * 60
    ensures var db := StoreWith(day, Some(12 * 60), Some(13 * 60), []);
      CreateAppointment(db, Client2, HaircutAt(day, minute)) == Err(LunchConflict)
  {
    var db := StoreWith(day, Some(12 * 60), Some(13 * 60), []);
    ExampleSchedule(day, Some(12 * 60), Some(13 * 60), []);
    var sch := ScheduleFor(db, 1, day).value;
    assert ScheduleAt(db, HaircutAt(day, minute)) == Some(sch);
  }

  /** With lunch 12:00-13:00, a haircut at 11:00 is accepted. */
  lemma BeforeLunchAccepted(day: int)
    ensures var db := StoreWith(day, Some(12 * 60), Some(13 * 60), []);
      CreateAppointment(db, Client2, HaircutAt(day, 11 * 60)).Ok?
  {
    var db := StoreWith(day, Some(12 * 60), Some(13 * 60), []);
    ExampleSchedule(day, Some(12 * 60), Some(13 * 60), []);
    var sch := ScheduleFor(db, 1, day).value;
    var ok := HaircutAt(day, 11 * 60);
    assert ScheduleAt(db, ok) == Some(sch);
    assert sch.busy == [sch.lunch.value];
    assert sch.lunch.value == Interval(Combine(day, 12 * 60), Combine(day, 13 * 60));
    assert Requested(db, ok) == Interval(Combine(day, 11 * 60), Combine(day, 11 * 60) + 30);
    assert !Overlaps(Requested(db, ok), sch.lunch.value);
    assert !Conflicts(Requested(db, ok), sch.busy);
    assert sch.window.start <= Requested(db, ok).start && Requested(db, ok).end <= sch.window.end;
  }

  /** Ninety minutes ahead, the client may no longer cancel, but the barber
      still may. */
  lemma LateCancelByClientOnly(now: int)
    ensures var a := NewAppointment(2, 1, 1, now + 90, "Corte", 5000, 30, 0);
      var t := [Row(7, a)];
      && CancelAppointment(t, 7, Client2, now, "") == Err(CancelWindowPassed)
      && CancelAppointment(t, 7, Barber1, now, "").Ok?
      && CancelAppointment(t, 7, Barber1, now, "").value.1.canceledBy == Some(ByBarber)
  {
  }

  /** A completed appointment cannot be confirmed. */
  lemma CompletedCannotBeConfirmed()
    ensures var a := NewAppointment(2, 1, 1, 0, "Corte", 5000, 30, 0).(status := Completed);
      ConfirmAppointment([Row(7, a)], 7, Barber1) == Err(InvalidTransition)
  {
  }
}

=== FILE: schedule.dfy ===
/** The availability engine of the appointments router: the half-open
    overlap test, the busy intervals of a barber's day, the operating rule
    of a day, and the walk over the 15-minute grid that lists free slots. */
module Schedule {
  import opened Common
  import opened Store
  import opened Models

  /** The half-open interval [start, end), in minutes. */
  datatype Interval = Interval(start: int, end: int)

  /** Minute m lies in the half-open interval. */
  predicate Covers(iv: Interval, m: int) {
    iv.start <= m < iv.end
  }

  /** `_overlaps`: the test both the slot listing and the booking use. */
  predicate Overlaps(a: Interval, b: Interval) {
    a.start < b.end && a.end > b.start
  }

  /** For non-empty intervals the test means exactly that some minute lies
      in both. */
  lemma OverlapsIffSharedMinute(a: Interval, b: Interval)
    requires a.start < a.end && b.start < b.end
    ensures Overlaps(a, b) <==> exists m :: Covers(a, m) && Covers(b, m)
  {
    if Overlaps(a, b) {
      var m := if a.start < b.start then b.start else a.start;
      assert Covers(a, m) && Covers(b, m);
    }
  }

  /** Back-to-back intervals do not conflict, in either order. */
  lemma BackToBackDoNotOverlap(a: Interval, b: Interval)
    requires a.end == b.start
    ensures !Overlaps(a, b) && !Overlaps(b, a)
  {
  }

  /** The candidate overlaps some busy interval. */
  predicate Conflicts(iv: Interval, busy: seq<Interval>) {
    exists i :: 0 <= i < |busy| && Overlaps(iv, busy[i])
  }

  /** The service exists and is active: the first check of both the slot
      listing and the booking. */
  predicate Bookable(db: Db, serviceId: int) {
    serviceId in db.services && db.services[serviceId].active
  }

  /** The interval an appointment occupies in the window: it must belong to
      the barber, not be canceled, start inside the window, and its service
      must still exist, whose current duration gives the length. */
  function AppointmentSpan(services: map<int, Service>, barberId: int, window: Interval,
                           a: Appointment): Option<Interval>
  {
    if a.barberId == barberId && a.status != Canceled
       && window.start <= a.time < window.end && a.serviceId in services
    then Some(Interval(a.time, a.time + services[a.serviceId].durationMinutes))
    else None
  }

  /** A block of the barber that intersects the window occupies its own
      interval, unclipped. */
  function BlockSpan(barberId: int, window: Interval, b: TimeBlock): Option<Interval> {
    if b.barberId == barberId && b.start < window.end && b.end > window.start
    then Some(Interval(b.start, b.end))
    else None
  }

  /** `_build_busy_intervals_for_day`. */
  function BusyIntervals(db: Db, barberId: int, window: Interval): (busy: seq<Interval>)
    ensures forall iv :: iv in busy <==>
      || (exists i :: 0 <= i < |db.appointments| &&
            (var a := db.appointments[i].data;
             && a.barberId == barberId
             && a.status != Canceled
             && window.start <= a.time < window.end
             && a.serviceId in db.services
             && iv == Interval(a.time, a.time + db.services[a.serviceId].durationMinutes)))
      || (exists j :: 0 <= j < |db.blocks| &&
            (var b := db.blocks[j].data;
             && b.barberId == barberId
             && b.start < window.end && b.end > window.start
             && iv == Interval(b.start, b.end)))
  {
    Collect(db.appointments, (a: Appointment) => AppointmentSpan(db.services, barberId, window, a))
    + Collect(db.blocks, (b: TimeBlock) => BlockSpan(barberId, window, b))
  }

  /** The rule row is keyed by this barber and weekday. */
  predicate RuleOf(h: BusinessHours, barberId: int, weekday: int) {
    h.barberId == barberId && h.weekday == weekday
  }

  /** `_get_business_hours_for_day`: the first rule row of the barber for
      the day's weekday. */
  function HoursForDay(hours: Table<BusinessHours>, barberId: int, day: int): (r: Option<BusinessHours>)
    ensures r.None? <==> forall j :: 0 <= j < |hours| ==> !RuleOf(hours[j].data, barberId, Weekday(day))
    ensures r.Some? ==> exists i :: 0 <= i < |hours| && hours[i].data == r.value
                          && RuleOf(r.value, barberId, Weekday(day))
                          && forall j :: 0 <= j < i ==> !RuleOf(hours[j].data, barberId, Weekday(day))
  {
    match Find(hours, (row: Row<BusinessHours>) => RuleOf(row.data, barberId, Weekday(day)))
    case None => None
    case Some(i) => Some(hours[i].data)
  }

  /** The lunch interval on the given day, when both bounds are set. */
  function LunchOf(day: int, h: BusinessHours): (r: Option<Interval>)
    ensures r.Some? <==> h.HasLunch()
    ensures r.Some? ==>
      && DateOf(r.value.start) == day && ClockOf(r.value.start) == h.lunchStart.value
      && DateOf(r.value.end) == day && ClockOf(r.value.end) == h.lunchEnd.value
  {
    if h.HasLunch()
    then Some(Interval(Combine(day, h.lunchStart.value), Combine(day, h.lunchEnd.value)))
    else None
  }

  /** What both the slot listing and the booking derive for an open day:
      the operating window, the lunch interval, and the busy intervals with
      lunch appended. */
  datatype DaySchedule = DaySchedule(window: Interval, lunch: Option<Interval>, busy: seq<Interval>)

  /** The day's schedule, or None when the barber has no rule for the
      weekday, the rule is flagged closed, or a bound is missing. Otherwise
      the window runs from the rule's opening to its closing time on the
      day, the lunch is the rule's lunch on the day, and the window lies
      within the day itself. */
  function ScheduleFor(db: Db, barberId: int, day: int): (r: Option<DaySchedule>)
    ensures r.None? <==> (HoursForDay(db.hours, barberId, day).None?
                          || !HoursForDay(db.hours, barberId, day).value.IsOpen())
    ensures r.Some? ==>
      var h := HoursForDay(db.hours, barberId, day).value;
      && r.value.window == Interval(Combine(day, h.openTime.value), Combine(day, h.closeTime.value))
      && r.value.lunch == LunchOf(day, h)
    ensures r.Some? ==>
      var w := r.value.window;
      day * MinutesPerDay <= w.start && w.end < (day + 1) * MinutesPerDay
    ensures r.Some? ==>
      forall iv :: iv in r.value.busy <==>
        iv in BusyIntervals(db, barberId, r.value.window)
        || (r.value.lunch.Some? && iv == r.value.lunch.value)
  {
    match HoursForDay(db.hours, barberId, day)
    case None => None
    case Some(h) =>
      if !h.IsOpen() then None
      else
        var window := Interval(Combine(day, h.openTime.value), Combine(day, h.closeTime.value));
        var lunch := LunchOf(day, h);
        var busy := BusyIntervals(db, barberId, window);
        Some(DaySchedule(window, lunch, busy + (if lunch.Some? then [lunch.value] else [])))
  }

  /** Start t lies on the slot grid laid from `origin`. */
  predicate OnGrid(origin: int, t: int) {
    t >= origin && (t - origin) % SlotStep == 0
  }

  /** Past its first point, the grid from `current` is the grid from the
      next step. */
  lemma GridNext(current: int)
    ensures forall t :: OnGrid(current, t) && t != current ==> OnGrid(current + SlotStep, t)
  {
    forall t | OnGrid(current, t) && t != current
      ensures OnGrid(current + SlotStep, t)
    {
      var k := (t - current) / SlotStep;
      assert t - current == SlotStep * k;
      assert k >= 1;
      assert t - (current + SlotStep) == SlotStep * (k - 1);
    }
  }

  /** The slot walk from `current`: every candidate [current, current +
      duration) on the grid whose end does not pass `dayEnd` is emitted
      unless it conflicts with a busy interval. */
  function Grid(current: int, dayEnd: int, duration: int, busy: seq<Interval>): (slots: seq<Interval>)
    ensures forall s :: s in slots <==>
      OnGrid(current, s.start) && s.end == s.start + duration && s.end <= dayEnd && !Conflicts(s, busy)
    ensures forall i, j :: 0 <= i < j < |slots| ==> slots[i].start < slots[j].start
    decreases dayEnd - duration - current
  {
    if current + duration > dayEnd then []
    else
      var s := Interval(current, current + duration);
      var rest := Grid(current + SlotStep, dayEnd, duration, busy);
      GridNext(current);
      (if Conflicts(s, busy) then [] else [s]) + rest
  }

  /** The answer of the slot listing for a bookable service. */
  datatype Availability =
    | Closed
    | Open(barberId: int, durationMinutes: int, hours: Interval, lunch: Option<Interval>,
           slots: seq<Interval>)

  /** `get_available_slots`. */
  function AvailableSlots(db: Db, serviceId: int, day: int): (r: Result<Availability>)
    ensures r.Err? <==> !Bookable(db, serviceId)
    ensures r.Err? ==> r.error == ServiceNotFound
    ensures r.Ok? ==>
      var barberId := db.services[serviceId].barberId;
      (r.value.Closed? <==> ScheduleFor(db, barberId, day).None?)
    ensures r.Ok? && r.value.Open? ==>
      var svc := db.services[serviceId];
      var sch := ScheduleFor(db, svc.barberId, day).value;
      && r.value.barberId == svc.barberId
      && r.value.durationMinutes == svc.durationMinutes
      && r.value.hours == sch.window
      && r.value.lunch == sch.lunch
      && forall s :: s in r.value.slots <==>
           && OnGrid(sch.window.start, s.start)
           && s.end == s.start + svc.durationMinutes
           && s.end <= sch.window.end
           && !Conflicts(s, sch.busy)
  {
    if !Bookable(db, serviceId) then Err(ServiceNotFound)
    else
      var svc := db.services[serviceId];
      match ScheduleFor(db, svc.barberId, day)
      case None => Ok(Closed)
      case Some(sch) =>
        Ok(Open(svc.barberId, svc.durationMinutes, sch.window, sch.lunch,
                Grid(sch.window.start, sch.window.end, svc.durationMinutes, sch.busy)))
  }

  /** The slots of an answer; a closed day has none. */
  function SlotsOf(a: Availability): seq<Interval> {
    if a.Open? then a.slots else []
  }

  /** Every listed slot lasts exactly the service's duration, lies inside
      the operating window, starts a whole number of steps after opening,
      and the starts strictly increase. */
  lemma SlotShape(db: Db, serviceId: int, day: int)
    requires AvailableSlots(db, serviceId, day).Ok?
    requires AvailableSlots(db, serviceId, day).value.Open?
    ensures var a := AvailableSlots(db, serviceId, day).value;
      forall i :: 0 <= i < |a.slots| ==>
        && a.slots[i].end - a.slots[i].start == a.durationMinutes
        && a.hours.start <= a.slots[i].start
        && a.slots[i].end <= a.hours.end
        && (a.slots[i].start - a.hours.start) % SlotStep == 0
    ensures var a := AvailableSlots(db, serviceId, day).value;
      forall i, j :: 0 <= i < j < |a.slots| ==> a.slots[i].start < a.slots[j].start
  {
    var a := AvailableSlots(db, serviceId, day).value;
    GridShape(a.hours.start, a.hours.end, a.durationMinutes,
              ScheduleFor(db, a.barberId, day).value.busy);
  }

  lemma GridShape(current: int, dayEnd: int, duration: int, busy: seq<Interval>)
    ensures var g := Grid(current, dayEnd, duration, busy);
      forall i :: 0 <= i < |g| ==>
        && g[i].end - g[i].start == duration
        && current <= g[i].start
        && g[i].end <= dayEnd
        && (g[i].start - current) % SlotStep == 0
  {
    var g := Grid(current, dayEnd, duration, busy);
    forall i | 0 <= i < |g|
      ensures g[i].end - g[i].start == duration && current <= g[i].start
      ensures g[i].end <= dayEnd && (g[i].start - current) % SlotStep == 0
    {
      assert g[i] in g;
    }
  }

  /** A service longer than the operating window gets no slots. */
  lemma NoSlotsWhenTooLong(db: Db, serviceId: int, day: int)
    requires AvailableSlots(db, serviceId, day).Ok?
    requires AvailableSlots(db, serviceId, day).value.Open?
    requires var a := AvailableSlots(db, serviceId, day).value;
      a.durationMinutes > a.hours.end - a.hours.start
    ensures AvailableSlots(db, serviceId, day).value.slots == []
  {
  }

  /** With nothing busy, the walk lists one slot per grid point from
      `current` up to the last start that still ends by `dayEnd`. */
  lemma {:induction false} FreeGridCount(current: int, dayEnd: int, duration: int)
    requires current + duration <= dayEnd
    ensures |Grid(current, dayEnd, duration, [])| == (dayEnd - duration - current) / SlotStep + 1
    decreases dayEnd - duration - current
  {
    var s := Interval(current, current + duration);
    assert !Conflicts(s, []);
    if current + SlotStep + duration <= dayEnd {
      FreeGridCount(current + SlotStep, dayEnd, duration);
    }
  }
}

=== FILE: store.dfy ===
/** Tables of the relational store, modelled as sequences of rows in table
    order. Each row carries its primary key. The operations are the few the
    routers use: lookup by key, the first row matching a filter, filtering,
    filter-and-project, in-place update, delete and insert with a fresh key. */
module Store {
  import opened Common

  datatype Row<T> = Row(id: int, data: T)

  type Table<T> = seq<Row<T>>

  /** Primary keys are pairwise distinct. */
  predicate UniqueIds<T>(t: Table<T>) {
    forall i, j :: 0 <= i < j < |t| ==> t[i].id != t[j].id
  }

  /** Position of the first row satisfying p: what `.first()` returns. */
  function Find<T>(t: Table<T>, p: Row<T> -> bool): (r: Option<nat>)
    ensures r.Some? ==> r.value < |t| && p(t[r.value])
    ensures r.Some? ==> forall j :: 0 <= j < r.value ==> !p(t[j])
    ensures r.None? ==> forall j :: 0 <= j < |t| ==> !p(t[j])
  {
    if |t| == 0 then None
    else
      match Find(t[..|t| - 1], p)
      case Some(k) => Some(k)
      case None => if p(t[|t| - 1]) then Some(|t| - 1) else None
  }

  /** `session.get(Model, id)`: the record stored under the key, if any. */
  function Get<T>(t: Table<T>, id: int): (r: Option<T>)
    ensures r.None? <==> forall j :: 0 <= j < |t| ==> t[j].id != id
    ensures r.Some? ==> exists j :: 0 <= j < |t| && t[j] == Row(id, r.value)
  {
    match Find(t, (row: Row<T>) => row.id == id)
    case None => None
    case Some(k) => Some(t[k].data)
  }

  /** With distinct keys, a lookup finds exactly the row stored under the key. */
  lemma GetUnique<T>(t: Table<T>, id: int, v: T)
    requires UniqueIds(t)
    ensures Get(t, id) == Some(v) <==> Row(id, v) in t
  {
    if Row(id, v) in t {
      var j :| 0 <= j < |t| && t[j] == Row(id, v);
      var k :| 0 <= k < |t| && t[k] == Row(id, Get(t, id).value);
      assert j == k;
    }
  }

  /** Writes `v` as the record of the row stored under `id` (a commit of a
      modified record). A missing key leaves the table unchanged. */
  function Put<T>(t: Table<T>, id: int, v: T): (t': Table<T>)
    ensures |t'| == |t|
    ensures forall j :: 0 <= j < |t| ==> t'[j].id == t[j].id
    ensures forall j :: 0 <= j < |t| && t[j].id != id ==> t'[j] == t[j]
    ensures forall j :: 0 <= j < |t| ==> t'[j] == t[j] || t'[j] == Row(id, v)
    ensures Get(t, id).Some? ==> Get(t', id) == Some(v)
    ensures Get(t, id).None? ==> t' == t
    ensures forall other :: other != id ==> Get(t', other) == Get(t, other)
  {
    match Find(t, (row: Row<T>) => row.id == id)
    case None => t
    case Some(k) =>
      var t' := t[k := Row(id, v)];
      PutKeepsOthers(t, t', id);
      t'
  }

  /** Writing back the record a key already holds changes nothing. */
  lemma PutSameRecord<T>(t: Table<T>, id: int)
    requires Get(t, id).Some?
    ensures Put(t, id, Get(t, id).value) == t
  {
    var k := Find(t, (row: Row<T>) => row.id == id).value;
    assert t[k] == Row(id, t[k].data);
  }

  /** Two tables with the same keys that agree on every row not stored
      under `id` answer every other lookup alike. */
  lemma PutKeepsOthers<T>(t: Table<T>, t': Table<T>, id: int)
    requires |t'| == |t|
    requires forall j :: 0 <= j < |t| ==> t'[j].id == t[j].id
    requires forall j :: 0 <= j < |t| && t[j].id != id ==> t'[j] == t[j]
    ensures forall other :: other != id ==> Get(t', other) == Get(t, other)
  {
    forall other | other != id
      ensures Get(t', other) == Get(t, other)
    {
      var p := (row: Row<T>) => row.id == other;
      var a := Find(t, p);
      var b := Find(t', p);
      if a.Some? {
        assert p(t'[a.value]);
        assert b.Some? && b.value == a.value;
      } else {
        assert forall j :: 0 <= j < |t'| ==> !p(t'[j]);
      }
    }
  }

  /** The rows satisfying p, in table order (a filtered `select`). */
  function Select<T(!new)>(t: Table<T>, p: Row<T> -> bool): (r: Table<T>)
    ensures |r| <= |t|
    ensures forall row :: row in r <==> row in t && p(row)
  {
    if |t| == 0 then []
    else
      var last := t[|t| - 1];
      assert t == t[..|t| - 1] + [last];
      Select(t[..|t| - 1], p) + (if p(last) then [last] else [])
  }

  /** Removing rows cannot make keys collide. */
  lemma {:induction false} SelectUnique<T(!new)>(t: Table<T>, p: Row<T> -> bool)
    requires UniqueIds(t)
    ensures UniqueIds(Select(t, p))
  {
    if |t| > 0 {
      var init := t[..|t| - 1];
      var last := t[|t| - 1];
      SelectUnique(init, p);
      var s := Select(init, p);
      forall i, j | 0 <= i < j < |Select(t, p)|
        ensures Select(t, p)[i].id != Select(t, p)[j].id
      {
        if j >= |s| {
          assert Select(t, p)[j] == last;
          assert Select(t, p)[i] == s[i];
          assert s[i] in init;
        }
      }
    }
  }

  /** A filter that keeps every row returns the table itself. */
  lemma {:induction false} SelectAll<T(!new)>(t: Table<T>, p: Row<T> -> bool)
    requires forall j :: 0 <= j < |t| ==> p(t[j])
    ensures Select(t, p) == t
  {
    if |t| > 0 {
      SelectAll(t[..|t| - 1], p);
      assert t == t[..|t| - 1] + [t[|t| - 1]];
    }
  }

  /** `session.delete`: the table without the row stored under `id`. */
  function Delete<T(!new)>(t: Table<T>, id: int): (t': Table<T>)
    ensures forall row :: row in t' <==> row in t && row.id != id
    ensures Get(t', id).None?
    ensures UniqueIds(t) ==> UniqueIds(t')
    ensures UniqueIds(t) && Get(t, id).Some? ==> |t'| == |t| - 1
  {
    var t' := Select(t, (row: Row<T>) => row.id != id);
    if UniqueIds(t) then
      SelectUnique(t, (row: Row<T>) => row.id != id);
      if Get(t, id).Some? then DeleteShrinks(t, id); t' else t'
    else t'
  }

  lemma {:induction false} DeleteShrinks<T(!new)>(t: Table<T>, id: int)
    requires UniqueIds(t) && Get(t, id).Some?
    ensures |Select(t, (row: Row<T>) => row.id != id)| == |t| - 1
  {
    var p := (row: Row<T>) => row.id != id;
    var init := t[..|t| - 1];
    var last := t[|t| - 1];
    if last.id == id {
      assert forall j :: 0 <= j < |init| ==> p(init[j]);
      SelectAll(init, p);
    } else {
      assert Get(init, id).Some? by {
        var j :| 0 <= j < |t| && t[j].id == id;
        assert init[j].id == id;
      }
      DeleteShrinks(init, id);
    }
  }

  /** A key larger than every key in the table (the next autoincrement value). */
  function NextId<T>(t: Table<T>): (n: int)
    ensures n >= 1
    ensures forall j :: 0 <= j < |t| ==> t[j].id < n
  {
    if |t| == 0 then 1
    else
      var n := NextId(t[..|t| - 1]);
      if t[|t| - 1].id + 1 > n then t[|t| - 1].id + 1 else n
  }

  /** `session.add` of a new record: it is appended under a fresh key. */
  function Insert<T>(t: Table<T>, v: T): (r: (Table<T>, int))
    ensures r.0 == t + [Row(r.1, v)]
    ensures Get(t, r.1).None?
    ensures Get(r.0, r.1) == Some(v)
    ensures forall other :: other != r.1 ==> Get(r.0, other) == Get(t, other)
    ensures UniqueIds(t) ==> UniqueIds(r.0)
  {
    var id := NextId(t);
    var t' := t + [Row(id, v)];
    assert t'[..|t|] == t;
    assert Find(t', (row: Row<T>) => row.id == id) == Some(|t|);
    (t', id)
  }

  /** The projections `f` gives of the rows' records, dropping the rows it
      maps to None, in table order. */
  function Collect<T, U(!new)>(t: Table<T>, f: T -> Option<U>): (r: seq<U>)
    ensures |r| <= |t|
    ensures forall u :: u in r <==> exists j :: 0 <= j < |t| && f(t[j].data) == Some(u)
  {
    if |t| == 0 then []
    else
      var last := t[|t| - 1];
      Collect(t[..|t| - 1], f) + (match f(last.data) case Some(u) => [u] case None => [])
  }
}

=== FILE: time_blocks.dfy ===
/** The time-block router: a barber lists, creates and deletes their own
    manual unavailability windows. */
module TimeBlocks {
  import opened Common
  import opened Store
  import opened Models
  import opened Schedule

  /** `list_time_blocks`: barbers only, and exactly the caller's blocks. */
  function ListTimeBlocks(t: Table<TimeBlock>, caller: Caller): (r: Result<Table<TimeBlock>>)
    ensures r.Err? <==> caller.role != Barber
    ensures r.Err? ==> r.error == Forbidden
    ensures r.Ok? ==> forall row :: row in r.value <==> row in t && row.data.barberId == caller.id
  {
    if caller.role != Barber then Err(Forbidden)
    else Ok(Select(t, (row: Row<TimeBlock>) => row.data.barberId == caller.id))
  }

  /** `create_time_block`: barbers only; the end must come after the start;
      the block is stored under a fresh key with the caller as owner,
      whatever owner the payload named. Other blocks are not consulted, so
      overlapping blocks are accepted. */
  function CreateTimeBlock(t: Table<TimeBlock>, caller: Caller, block: TimeBlock)
    : (r: Result<(Table<TimeBlock>, Row<TimeBlock>)>)
    ensures caller.role != Barber ==> r == Err(Forbidden)
    ensures caller.role == Barber && block.end <= block.start ==> r == Err(EndNotAfterStart)
    ensures r.Ok? <==> caller.role == Barber && block.start < block.end
    ensures r.Ok? ==>
      && r.value.1.data == block.(barberId := caller.id)
      && r.value.0 == t + [r.value.1]
      && Get(t, r.value.1.id).None?
      && (UniqueIds(t) ==> UniqueIds(r.value.0))
  {
    if caller.role != Barber then Err(Forbidden)
    else if block.end <= block.start then Err(EndNotAfterStart)
    else
      var owned := block.(barberId := caller.id);
      var (t', id) := Insert(t, owned);
      Ok((t', Row(id, owned)))
  }

  /** `delete_time_block`: barbers only; a missing block is NotFound and
      another barber's block is Forbidden, and neither removes anything;
      the owner's delete removes exactly that block. */
  function DeleteTimeBlock(t: Table<TimeBlock>, caller: Caller, id: int): (r: Result<Table<TimeBlock>>)
    ensures caller.role != Barber ==> r == Err(Forbidden)
    ensures caller.role == Barber && Get(t, id).None? ==> r == Err(BlockNotFound)
    ensures caller.role == Barber && Get(t, id).Some? && Get(t, id).value.barberId != caller.id
            ==> r == Err(Forbidden)
    ensures r.Ok? <==> caller.role == Barber && Get(t, id).Some? && Get(t, id).value.barberId == caller.id
    ensures r.Ok? ==>
      && (forall row :: row in r.value <==> row in t && row.id != id)
      && (UniqueIds(t) ==> UniqueIds(r.value) && |r.value| == |t| - 1)
  {
    if caller.role != Barber then Err(Forbidden)
    else
      match Get(t, id)
      case None => Err(BlockNotFound)
      case Some(b) =>
        if b.barberId != caller.id then Err(Forbidden)
        else Ok(Delete(t, id))
  }

  /** Once a barber creates a block, no slot the listing offers for any of
      that barber's services on any day overlaps the block. */
  lemma CreatedBlockHidesSlots(db: Db, caller: Caller, block: TimeBlock, serviceId: int, day: int)
    requires CreateTimeBlock(db.blocks, caller, block).Ok?
    requires serviceId in db.services && db.services[serviceId].barberId == caller.id
    ensures var db' := db.(blocks := CreateTimeBlock(db.blocks, caller, block).value.0);
      var a := AvailableSlots(db', serviceId, day);
      a.Ok? ==> forall s :: s in SlotsOf(a.value) ==> !Overlaps(s, Interval(block.start, block.end))
  {
    var (blocks', row) := CreateTimeBlock(db.blocks, caller, block).value;
    var db' := db.(blocks := blocks');
    var a := AvailableSlots(db', serviceId, day);
    if a.Ok? && a.value.Open? {
      var sch := ScheduleFor(db', caller.id, day).value;
      var span := Interval(block.start, block.end);
      assert blocks'[|db.blocks|].data == row.data;
      forall s | s in a.value.slots
        ensures !Overlaps(s, span)
      {
        assert Overlaps(s, span) ==> span in BusyIntervals(db', caller.id, sch.window);
      }
    }
  }
}
